=== FILE: README.md ===
# File classifier: a Dafny model of the classification run

`FileClassifierMultithreadedGUI` is a Swing tool that tidies a folder. The
user picks a base folder and, optionally, one file to leave alone. Pressing
*Classify* does the following:

1. It walks the tree below the base folder and collects every regular file.
2. It counts the files per raw extension.
3. It groups them by lower-cased extension.
4. It moves each file into `base/<extension>/<name>`. Each extension is one
   task, and the tasks run on a pool with one thread per available processor.
5. It deletes every directory left empty below the base folder.

This project models that run as pure functions over an immutable file tree
and proves what each step does to the tree, the counters and the log.

The model is split into modules that follow the program's methods:

| module | file | what it models |
|---|---|---|
| `Wrappers` | `wrappers.dfy` | `Option` and `Result` |
| `Paths` | `paths.dfy` | absolute paths as sequences of names; `Name`, `Parent` |
| `FileTree` | `tree.dfy` | the file system: `File(name, data)` or `Dir(name, children)` in listing order; `Lookup`, `Put` and `Remove` by path |
| `Extension` | `extension.dfy` | `getFileExtension` and the ASCII `toLowerCase` |
| `Tally` | `tally.dfy` | the `fileTypeCounts` map |
| `Scanner` | `scanner.dfy` | `listFiles`: the depth-first walk and the counters |
| `Classifier` | `classifier.dfy` | `classifyFiles`: the bucket map |
| `Relocation` | `relocation.dfy` | `Files.move(.., REPLACE_EXISTING)`, `mkdirs` and `createFoldersAndMoveFiles` |
| `Pruner` | `pruner.dfy` | `deleteEmptyFolders` |
| `Classification` | `classification.dfy` | the *Classify* handler, run sequentially |

Some things become explicit parameters:

- The environment's move failures (permissions, I/O errors) are a set
  `fails` of source paths whose move throws.
- The `HashMap` enumeration order of the buckets is a sequence `order`.
- Messages appended to the result area become a log of
  `Moved(source, target)` and `Failed(source, target)` lines, one per
  attempted move, in order.

`Run` rejects a base folder that is not an existing directory with
`Err(NotADirectory)` and otherwise returns the final tree, the collected
paths, the counters and the log.

## Model

| member | source | states |
|---|---|---|
| Extension.FileExtension | FileClassifierMultithreadedGUI.java:286-292 | when the name has no dot or ends in a dot, the result is `"unknown"`; otherwise it is a non-empty proper part of the name |
| Extension.ExtensionShape | FileClassifierMultithreadedGUI.java:287-289 | when the last dot is not the final character, the result is exactly the text after the last dot: non-empty, dot-free, preceded by a dot, and the name is the prefix, `.` and the result |
| Extension.ExtensionIsUnique | FileClassifierMultithreadedGUI.java:287-289 | for any name of the form `prefix.ext` with a non-empty, dot-free `ext`, the extension is `ext` (the inverse of splitting off the extension) |
| Extension.UnknownExactly | FileClassifierMultithreadedGUI.java:286-292 | the result is `"unknown"` if and only if the name has no usable dot or literally ends in `.unknown` |
| Extension.LastIndexOfIsLast | FileClassifierMultithreadedGUI.java:287 | `lastIndexOf('.')` is the last occurrence of the dot, and it is -1 exactly when the name has no dot |
| Extension.LowerIdempotent | FileClassifierMultithreadedGUI.java:234 | lower-casing twice is lower-casing once |
| Extension.ExtensionCaseFolds | FileClassifierMultithreadedGUI.java:234 | `b.TXT` and `a.txt` have different raw extensions but the same lower-cased one |
| Tally.Inc | FileClassifierMultithreadedGUI.java:218 | `put(e, getOrDefault(e, 0) + 1)` adds `e` to the keys, raises its count by one and leaves every other count alone |
| Tally.TotalInc | FileClassifierMultithreadedGUI.java:218 | one increment raises the sum of all counts by exactly one |
| Scanner.ScanEntries | FileClassifierMultithreadedGUI.java:211-225 | every collected path lies strictly below the scanned folder and differs from the excluded file |
| Scanner.ScanSound | FileClassifierMultithreadedGUI.java:213-221 | in a tree with distinct sibling names, every collected path names a regular file of the tree |
| Scanner.ScanComplete | FileClassifierMultithreadedGUI.java:213-221 | every regular file below the folder other than the excluded one is collected |
| Scanner.ListFilesCounts | FileClassifierMultithreadedGUI.java:211-225 | starting from cleared counters, each raw extension's count is the number of collected files with that extension, only extensions that occur are keys, and the counts sum to the number of files |
| Scanner.ScanEntriesCounts | FileClassifierMultithreadedGUI.java:213-222 | the walk adds to the counters exactly the per-extension occurrences of the files it collects |
| Classifier.Classify | FileClassifierMultithreadedGUI.java:230-239 | the bucket of each category is the subsequence of the input with that category, and a category is a key exactly when its bucket is non-empty |
| Classifier.SelectMembers | FileClassifierMultithreadedGUI.java:232-236 | a path is in bucket `k` if and only if it is in the input and its category is `k` |
| Classifier.SelectCount | FileClassifierMultithreadedGUI.java:232-236 | a path occurs in its own category's bucket as often as in the input, and in no other bucket |
| Classifier.ClassifyPlacesEachPath | FileClassifierMultithreadedGUI.java:232-236 | every input path is in the bucket of its category and in no other bucket |
| Classifier.ClassifyBucketsAreHomogeneous | FileClassifierMultithreadedGUI.java:235-236 | every bucket that exists is non-empty and holds only input paths of its own category |
| Classifier.ClassifyKeepsOrder | FileClassifierMultithreadedGUI.java:232-236 | buckets only grow at the end: each bucket of a prefix of the input is a prefix of the final bucket |
| Classifier.SelectAppend | FileClassifierMultithreadedGUI.java:232-236 | grouping distributes over concatenation of the input |
| Classifier.ClassifyPartitions | FileClassifierMultithreadedGUI.java:230-239 | the bucket sizes sum to the number of input paths |
| Classifier.CaseVariantsShareCategory | FileClassifierMultithreadedGUI.java:232-236 | `b.TXT` and `a.txt` land in the bucket `txt` although their raw extensions differ; a name without a dot lands in `unknown` |
| Classifier.CaseInsensitiveCategory | FileClassifierMultithreadedGUI.java:234 | any two names whose extensions have the same length and agree letter by letter after lower-casing share one category, which is the lower-cased extension |
| Relocation.Move | FileClassifierMultithreadedGUI.java:257 | the log line names the source and the target; a failed move leaves the tree unchanged; the move succeeds if and only if the source is a regular file the environment lets move and either it is moved onto itself or the target's parent is a directory and the target is not a non-empty directory |
| Relocation.MoveReplaces | FileClassifierMultithreadedGUI.java:257 | with `REPLACE_EXISTING`, a movable regular file always replaces a regular file already at the target: the move succeeds and the target then holds the source's contents under the target's name |
| Relocation.MoveCreatesOnlyTarget | FileClassifierMultithreadedGUI.java:257 | in a tree with distinct sibling names, a move creates a regular file only at its target, and the only directories it can make non-empty are the target's ancestors |
| Relocation.MoveDelivers | FileClassifierMultithreadedGUI.java:257 | after a successful move the target is a regular file with the target's name and the source's contents |
| Relocation.MoveVacatesSource | FileClassifierMultithreadedGUI.java:257 | in a tree with distinct sibling names, after a successful move to a different path, nothing is left at the source |
| Relocation.MoveKeepsOtherFiles | FileClassifierMultithreadedGUI.java:257 | every regular file other than the source and the target is unchanged |
| Relocation.MovedApart | FileClassifierMultithreadedGUI.java:257 | a successful move between different paths had incomparable paths, an existing parent directory and no non-empty directory at the target |
| Relocation.EnsureDir | FileClassifierMultithreadedGUI.java:248-251 | when something already exists at the folder path, the tree is unchanged |
| Relocation.EnsureDirCreates | FileClassifierMultithreadedGUI.java:248-251 | below an existing directory, the folder exists afterwards, and is a new empty directory when nothing was there |
| Relocation.EnsureDirIdempotent | FileClassifierMultithreadedGUI.java:249-250 | creating the category folder twice is creating it once |
| Relocation.EnsureDirKeepsFiles | FileClassifierMultithreadedGUI.java:248-251 | creating the folder leaves every regular file unchanged |
| Relocation.EnsureDirCreatesOnlyFolder | FileClassifierMultithreadedGUI.java:249-251 | creating the folder creates no regular file, and the only directories it can make non-empty are the folder's ancestors |
| Relocation.Target | FileClassifierMultithreadedGUI.java:248-255 | the destination is `base/<category>/<name of the source>`: two segments below the base, with the category first and the source's name last |
| Relocation.MoveAll | FileClassifierMultithreadedGUI.java:253-266 | a failing move does not stop the loop: there is one log line per listed file, in list order, each naming the file and its target in the category folder |
| Relocation.MoveAllSteps | FileClassifierMultithreadedGUI.java:253-266 | move `i` acts on the tree left by the first `i` moves, and its outcome is log line `i` |
| Relocation.LastWriteWins | FileClassifierMultithreadedGUI.java:253-266 | when move `i` succeeds and no later successful move has the same target, the final tree holds the file that move `i` took at that target; and then no later file with the same name that the environment lets move was still a regular file when its turn came, since it would have overwritten the target |
| Relocation.LaterMoveReplaces | FileClassifierMultithreadedGUI.java:253-266 | when move `i` succeeded and a later file of the category with the same name is still a movable regular file at its turn, that later move succeeds and overwrites move `i`'s target with its own contents |
| Relocation.MoveAllMoves | FileClassifierMultithreadedGUI.java:253-266 | in a tree with distinct sibling names, move `i` of a category succeeds under four conditions, all judged in the tree before the category's loop starts, not at move `i`'s turn: its file is listed there for the first time; it is a regular file the environment lets move; the category folder exists; and no non-empty directory sits at its target |
| Classifier.DotfileCategory | FileClassifierMultithreadedGUI.java:286-292 | a hidden file such as `.gitignore` falls in the category named by the text after its leading dot |
| Relocation.MoveAllCreatesOnlyTargets | FileClassifierMultithreadedGUI.java:253-266 | a category's loop creates regular files only two levels below the base folder, and makes non-empty only directories above that depth |
| Relocation.FailedSourceStays | FileClassifierMultithreadedGUI.java:256-265 | a file whose move throws stays where it was, unchanged, unless a later move overwrites or takes it |
| Relocation.RelocateCategoryFrame | FileClassifierMultithreadedGUI.java:244-267 | a regular file that is neither a source nor a target of the category's moves is unchanged |
| Relocation.MoveAllDelivers | FileClassifierMultithreadedGUI.java:253-266 | after the loop, the target of every successful move holds a regular file |
| Relocation.BlockedCategoryFails | FileClassifierMultithreadedGUI.java:248-265 | when a regular file occupies `base/<category>`, no folder is created, every move of the category fails and the tree is unchanged |
| Pruner.Prune | FileClassifierMultithreadedGUI.java:272-281 | the folder being cleaned is never deleted itself: it keeps its name and stays a directory, and a file is left as it is |
| Pruner.PruneEntries | FileClassifierMultithreadedGUI.java:273-279 | no entry left in a pruned listing is an empty directory |
| Pruner.PruneTidy | FileClassifierMultithreadedGUI.java:272-281 | after pruning, no directory anywhere below the folder is empty |
| Pruner.TidyHasNoEmptyDirs | FileClassifierMultithreadedGUI.java:276-277 | in a tidy tree, every directory strictly below the root has an entry |
| Pruner.PruneFixedExactly | FileClassifierMultithreadedGUI.java:272-281 | pruning changes nothing if and only if no directory below the folder is empty |
| Pruner.PruneIdempotent | FileClassifierMultithreadedGUI.java:272-281 | pruning twice is pruning once |
| Pruner.PruneKeepsFiles | FileClassifierMultithreadedGUI.java:272-281 | every regular file is still there, unchanged, after pruning |
| Pruner.PruneAddsNoFiles | FileClassifierMultithreadedGUI.java:272-281 | in a tree with distinct sibling names, every regular file after pruning was there before with the same contents |
| Pruner.PruneEntriesScan | FileClassifierMultithreadedGUI.java:272-281 | the file walk of a pruned tree collects the same paths and counts as that of the original |
| Pruner.PruneAtScan | FileClassifierMultithreadedGUI.java:272-281 | a second scan of the base folder after the clean-up collects the same paths and the same counts as a scan before it, and the base folder is still a directory |
| Pruner.PruneWellFormed | FileClassifierMultithreadedGUI.java:272-281 | pruning keeps sibling names distinct |
| Pruner.PruneAtBase | FileClassifierMultithreadedGUI.java:272-281 | the base folder itself is never deleted, and its subtree becomes its pruned subtree |
| Pruner.PruneAtKeepsFiles | FileClassifierMultithreadedGUI.java:272-281 | every regular file in the whole tree is unchanged by pruning below the base folder |
| Pruner.PruneAtLeavesNoEmptyDirs | FileClassifierMultithreadedGUI.java:272-281 | every directory strictly below the base folder has an entry afterwards |
| Classification.ClassifyIsClassified | FileClassifierMultithreadedGUI.java:137-138 | the buckets of a scan below the base hold only paths below the base, each in the bucket of its category |
| Classification.JobsCoverScan | FileClassifierMultithreadedGUI.java:138-143 | when the map's enumeration lists each category once, the scheduled moves are a permutation of the scanned paths |
| Classification.RelocateAll | FileClassifierMultithreadedGUI.java:140-143 | the log has one line per scheduled move, each naming its source and the target in its category folder |
| Classification.RelocateAllTargets | FileClassifierMultithreadedGUI.java:140-143 | every attempted move sends a file below the base to the destination of its own lower-cased extension |
| Classification.RelocateAllDelivers | FileClassifierMultithreadedGUI.java:140-151 | after all categories are done, every successful move's target still holds a regular file, since later categories never touch destinations already filled |
| Classification.RelocateAllFrame | FileClassifierMultithreadedGUI.java:140-151 | regular files outside the base folder are left alone |
| Classification.RelocateAllKeeps | FileClassifierMultithreadedGUI.java:140-151 | a regular file that no successful move takes away or writes to is unchanged after all categories |
| Classification.RelocateAllKeepsFile | FileClassifierMultithreadedGUI.java:140-151 | a regular file that no scheduled move takes as its source is still a regular file after all categories |
| Classification.RelocateAllCreatesOnlyTargets | FileClassifierMultithreadedGUI.java:140-151 | all categories together create regular files only two levels below the base folder, and make non-empty only directories above that depth |
| Classification.RelocateAllMoves | FileClassifierMultithreadedGUI.java:140-151 | a scheduled move succeeds when, in the initial tree, its file is scheduled there for the first time, is a regular file the environment lets move, no regular file in the base folder has its category's name, and no non-empty directory sits at its destination |
| Classification.Run | FileClassifierMultithreadedGUI.java:117-159 | the run fails exactly when the base folder is not an existing directory, and on success the base folder still exists |
| Classification.RunSteps | FileClassifierMultithreadedGUI.java:131-154 | the buckets built from the scan hold only paths below the base folder, each in the bucket of its own category, and the base folder is still a directory once every category is relocated, so pruning starts from it |
| Classification.RunCounts | FileClassifierMultithreadedGUI.java:131-158 | the counters describe exactly the files collected, and they sum to the reported total |
| Classification.RunCollectsFiles | FileClassifierMultithreadedGUI.java:127-137 | a path is collected if and only if it is a regular file strictly below the base folder and not the excluded file |
| Classification.RunLogsEveryFile | FileClassifierMultithreadedGUI.java:137-151 | with a genuine enumeration order, each collected file is attempted exactly once, so the log sources are a permutation of the collected paths, each sent to its destination |
| Classification.RunDelivers | FileClassifierMultithreadedGUI.java:137-154 | every successful move targets `base/<lower-cased extension>/<name>` of its source, and at the end some regular file occupies that target |
| Classification.RunMovesFile | FileClassifierMultithreadedGUI.java:137-154 | a collected file is moved, and a regular file sits at its destination at the end, when it is logged there for the first time, the environment lets it move, no regular file in the base folder has its category's name, and no non-empty directory sits at its destination |
| Classification.RunFailedSourceStays | FileClassifierMultithreadedGUI.java:137-154 | a file whose move throws was a regular file at the start and is still there, with the same contents, at the end of the run, when no other log line takes it or targets its path |
| Classification.RunLeavesNoEmptyDirs | FileClassifierMultithreadedGUI.java:153-154 | after the run, no directory strictly below the base folder is empty |
| Classification.RunKeepsOutside | FileClassifierMultithreadedGUI.java:117-159 | regular files outside the base folder are unchanged by the run |
| Classification.RunWellFormed | FileClassifierMultithreadedGUI.java:117-159 | a run keeps sibling names distinct throughout the tree |

## Left out

- The Swing window, the folder chooser and the bar chart (lines 40-115 and 162-206) are user interface only and are not modelled.
- The `main` method (lines 294-300) only opens the window and is not modelled.
- The thread pool (lines 133-151) is not modelled. Categories are relocated one after another in `order`, and `synchronized` blocks and interleavings are out of scope.
- The one-hour `awaitTermination` timeout and the interruption message (lines 147-151) are not modelled: the sequential run always completes.
- The start and end times (lines 130 and 156) are clock readings and are not modelled.
- The messages appended to the result area are not modelled as text. The log records each move's outcome, source and target instead.
- `HashMap` iteration order is unspecified. It is the `order` parameter, and only `Classification.RunLogsEveryFile` and `Classification.JobsCoverScan` assume it lists each key once.
- `mkdirs` and `delete` are modelled as always succeeding when their preconditions hold. Their failure paths are not modelled.
- `Files.move` on a source that is a directory is modelled as a failure, where Java would move the directory. A collected path can hold a directory only when `order` lists a category twice: a first pass moves a file named `<category>` directly in the base folder away, `mkdirs` then creates the category folder at that path, and a second pass over the first category finds the directory. A real `HashMap` never lists a key twice, so this does not arise in the program.
- Symbolic links, special files and a `null` result from `listFiles` are not modelled. The tree holds only regular files and directories.
- The base folder and the excluded file are taken as standard absolute paths, a list of names from the root. The program compares the excluded path with each listed path as exact strings (line 214), and each listed path is the base folder's path exactly as typed plus the entry name. That comparison is not modelled for relative or non-standard spellings. A relative base with an absolute excluded path never matches in the program, so the file is moved. A base spelled with `..` exists for the program (line 122), but the model has no `..` segment.
- `toLowerCase` is modelled on ASCII letters only. Locale-dependent and non-ASCII case mappings are not modelled.
- A successful `Put` appends a new entry to the end of its directory's listing. The real listing order of a directory after a move is platform-dependent.
- The claim that a second run over an already classified folder moves every file onto itself is not proved.
- Extension.FileExtension: its own `ensures` states only the two cases and the length bound. The exact result is stated by `Extension.ExtensionShape` and `Extension.ExtensionIsUnique`.
- Relocation.EnsureDir: its own `ensures` covers only the case where the folder already exists. Creation is stated by `Relocation.EnsureDirCreates`.
- Classification.RunDelivers: it states only that a regular file occupies each successful move's target at the end, not which one. Two files of one category with the same name share a target, and `REPLACE_EXISTING` (line 257) lets the later move overwrite the earlier. Which file wins is proved per category by `Relocation.LastWriteWins`, not for the whole run.
- Pruner.PruneAt: it requires the base folder to be a directory. The source would fail with a `NullPointerException` on anything else, and `Run` never calls it then.

Behaviour of the code worth knowing:

- The counters are keyed by the raw extension, so `a.txt` and `b.TXT` count as `txt: 1, TXT: 1` (lines 216-218), while both land in the folder `txt` (line 234).
- The excluded file is matched by path equality (`File.equals` compares path strings), without resolving either path.
- Hidden files are classified like any other name. `.gitignore` goes to the folder `gitignore`, the text after its leading dot (`Classifier.DotfileCategory`). Hidden directories such as `.git` are walked, so the files inside them are moved out into the category folders.
- A file literally named `x.unknown` lands in the same `unknown` folder as files without an extension.

=== FILE: classification.dfy ===
/**
  One press of the Classify button, with the thread pool replaced by running
  the categories one after another: check the base folder, clear the
  counters, scan, group, relocate every category in the bucket map's
  enumeration order, then remove the directories left empty.
 */
module Classification {
  import opened Wrappers
  import opened Paths
  import opened FileTree
  import opened Extension
  import opened Tally
  import opened Scanner
  import opened Classifier
  import opened Relocation
  import opened Pruner

  /** Where a scanned file belongs: `base/<lower-cased extension>/<name>`. */
  function Destination(base: Path, p: Path): Path
  {
    Target(base, Category(p), p)
  }

  /** A file at its own destination is already classified. */
  predicate Settled(base: Path, d: Path)
  {
    d == Destination(base, d)
  }

  /** A destination is settled: it keeps the name, and so the category, of the file sent there. */
  lemma DestinationIsSettled(base: Path, p: Path)
    ensures Settled(base, Destination(base, p))
    ensures Category(Destination(base, p)) == Category(p)
  {
  }

  // ---------------------------------------------------------------------------
  // The schedule of moves

  /** One scheduled move: a listed path and the category whose folder receives it. */
  datatype Job = Job(cat: string, src: Path)

  /** The moves of one category: each path of its list, in order. */
  function JobList(k: string, ps: seq<Path>): (r: seq<Job>)
    ensures |r| == |ps| && forall i :: 0 <= i < |ps| ==> r[i] == Job(k, ps[i])
  {
    seq(|ps|, i requires 0 <= i < |ps| => Job(k, ps[i]))
  }

  /** The moves the run schedules: each category's list in turn, categories in enumeration order. */
  function Jobs(b: Buckets, order: seq<string>): seq<Job>
    decreases |order|
  {
    if |order| == 0 then []
    else
      var k := order[|order| - 1];
      Jobs(b, order[..|order| - 1]) + JobList(k, Bucket(b, k))
  }

  function Sources(jobs: seq<Job>): (r: seq<Path>)
    ensures |r| == |jobs| && forall i :: 0 <= i < |jobs| ==> r[i] == jobs[i].src
  {
    seq(|jobs|, i requires 0 <= i < |jobs| => jobs[i].src)
  }

  /** The source paths of a log, in order. */
  function LogSources(log: seq<MoveOutcome>): (r: seq<Path>)
    ensures |r| == |log| && forall i :: 0 <= i < |log| ==> r[i] == log[i].source
  {
    seq(|log|, i requires 0 <= i < |log| => log[i].source)
  }

  /** The order lists every category of `b` exactly once, as a map's enumeration does. */
  predicate Enumerates(order: seq<string>, b: Buckets)
  {
    && (forall i, j :: 0 <= i < j < |order| ==> order[i] != order[j])
    && (forall k :: k in b ==> k in order)
    && (forall k :: k in order ==> k in b)
  }

  /** Every bucket holds only paths below `base` of its own category, as `Classify` of a scan produces. */
  ghost predicate Classified(b: Buckets, base: Path)
  {
    forall k, j :: 0 <= j < |Bucket(b, k)| ==> Category(Bucket(b, k)[j]) == k && base < Bucket(b, k)[j]
  }

  /** Every scheduled move comes from the bucket of its category. */
  lemma {:induction false} JobsFromBuckets(b: Buckets, order: seq<string>, base: Path)
    requires Classified(b, base)
    ensures forall i :: 0 <= i < |Jobs(b, order)| ==>
              Jobs(b, order)[i].cat == Category(Jobs(b, order)[i].src) && base < Jobs(b, order)[i].src
    decreases |order|
  {
    if |order| > 0 {
      JobsFromBuckets(b, order[..|order| - 1], base);
    }
  }

  /** Every scheduled move takes a path from the bucket of its category. */
  lemma {:induction false} JobsFromBucketsIn(b: Buckets, order: seq<string>)
    ensures forall i :: 0 <= i < |Jobs(b, order)| ==> Jobs(b, order)[i].src in Bucket(b, Jobs(b, order)[i].cat)
    decreases |order|
  {
    if |order| > 0 {
      JobsFromBucketsIn(b, order[..|order| - 1]);
    }
  }

  /** Every scheduled move takes a path that the scan listed. */
  lemma JobsAreListed(files: seq<Path>, order: seq<string>)
    ensures forall i :: 0 <= i < |Jobs(Classify(files), order)| ==> Jobs(Classify(files), order)[i].src in files
  {
    var b := Classify(files);
    JobsFromBucketsIn(b, order);
    forall i | 0 <= i < |Jobs(b, order)|
      ensures Jobs(b, order)[i].src in files
    {
      SelectMembers(files, Jobs(b, order)[i].cat, Jobs(b, order)[i].src);
    }
  }

  lemma ClassifyIsClassified(files: seq<Path>, base: Path)
    requires forall p :: p in files ==> base < p
    ensures Classified(Classify(files), base)
  {
    forall k, j | 0 <= j < |Bucket(Classify(files), k)|
      ensures Category(Bucket(Classify(files), k)[j]) == k && base < Bucket(Classify(files), k)[j]
    {
      SelectMembers(files, k, Bucket(Classify(files), k)[j]);
    }
  }

  /** The schedule of `order` is that of its prefix followed by the last category's list. */
  lemma JobsSnoc(b: Buckets, order: seq<string>)
    requires |order| > 0
    ensures Sources(Jobs(b, order)) == Sources(Jobs(b, order[..|order| - 1])) + Bucket(b, order[|order| - 1])
  {
    var k := order[|order| - 1];
    var ps := Bucket(b, k);
    var js := Jobs(b, order[..|order| - 1]);
    var last := JobList(k, ps);
    assert Jobs(b, order) == js + last;
    assert Sources(js + last) == Sources(js) + ps;
  }

  /** The same, index by index: the prefix's moves come first, then the last category's. */
  lemma JobsSplit(b: Buckets, order: seq<string>)
    requires |order| > 0
    ensures |Jobs(b, order)| == |Jobs(b, order[..|order| - 1])| + |Bucket(b, order[|order| - 1])|
    ensures forall j :: 0 <= j < |Jobs(b, order[..|order| - 1])| ==>
              Jobs(b, order)[j] == Jobs(b, order[..|order| - 1])[j]
    ensures forall j :: |Jobs(b, order[..|order| - 1])| <= j < |Jobs(b, order)| ==>
              Jobs(b, order)[j] == Job(order[|order| - 1], Bucket(b, order[|order| - 1])[j - |Jobs(b, order[..|order| - 1])|])
  {
    var k := order[|order| - 1];
    assert Jobs(b, order) == Jobs(b, order[..|order| - 1]) + JobList(k, Bucket(b, k));
  }

  /**
    When `p` occurs `m` times in the bucket of category `c` and in no other
    bucket, it occurs `m` times in a schedule that lists `c` once, and not at
    all in one that does not list `c`.
   */
  lemma {:induction false} JobsCountIn(b: Buckets, order: seq<string>, p: Path, c: string, m: nat)
    requires forall i, j :: 0 <= i < j < |order| ==> order[i] != order[j]
    requires forall i :: 0 <= i < |order| ==> multiset(Bucket(b, order[i]))[p] == if order[i] == c then m else 0
    ensures multiset(Sources(Jobs(b, order)))[p] == if c in order then m else 0
    decreases |order|
  {
    var n := |order|;
    if n == 0 {
      assert Sources(Jobs(b, order)) == [];
    } else {
      var init := order[..n - 1];
      var k := order[n - 1];
      assert order == init + [k];
      assert forall i :: 0 <= i < |init| ==> init[i] == order[i];
      assert forall i :: 0 <= i < |init| ==> multiset(Bucket(b, init[i]))[p] == if init[i] == c then m else 0;
      assert forall i, j :: 0 <= i < j < |init| ==> init[i] != init[j];
      JobsCountIn(b, init, p, c, m);
      assert k !in init by {
        forall i | 0 <= i < |init|
          ensures init[i] != k
        {
          assert init[i] == order[i];
        }
      }
      JobsSnoc(b, order);
      var before := Sources(Jobs(b, init));
      assert multiset(before + Bucket(b, k)) == multiset(before) + multiset(Bucket(b, k));
      assert multiset(Bucket(b, k))[p] == if k == c then m else 0;
      assert c in order <==> c in init || c == k;
    }
  }

  /** With distinct categories in `order`, a path is scheduled as often as it was listed, if its category is there. */
  lemma JobsCount(files: seq<Path>, order: seq<string>, p: Path)
    requires forall i, j :: 0 <= i < j < |order| ==> order[i] != order[j]
    ensures multiset(Sources(Jobs(Classify(files), order)))[p]
            == if Category(p) in order then multiset(files)[p] else 0
  {
    var b := Classify(files);
    forall i | 0 <= i < |order|
      ensures multiset(Bucket(b, order[i]))[p] == if order[i] == Category(p) then multiset(files)[p] else 0
    {
      SelectCount(files, order[i], p);
    }
    JobsCountIn(b, order, p, Category(p), multiset(files)[p]);
  }

  /** With an enumeration order, every listed path is scheduled exactly once per listing. */
  lemma JobsCoverScan(files: seq<Path>, order: seq<string>)
    requires Enumerates(order, Classify(files))
    ensures multiset(Sources(Jobs(Classify(files), order))) == multiset(files)
    ensures |Jobs(Classify(files), order)| == |files|
  {
    var b := Classify(files);
    forall p
      ensures multiset(Sources(Jobs(b, order)))[p] == multiset(files)[p]
    {
      JobsCount(files, order, p);
      if p in files {
        SelectMembers(files, Category(p), p);
      }
    }
    assert multiset(Sources(Jobs(b, order))) == multiset(files);
    assert |multiset(Sources(Jobs(b, order)))| == |multiset(files)|;
  }

  // ---------------------------------------------------------------------------
  // Relocating every category

  /** `createFoldersAndMoveFiles` for each entry of the bucket map, one after another. */
  function RelocateAll(t: Node, base: Path, b: Buckets, order: seq<string>, fails: set<Path>): (r: Relocated)
    ensures |r.log| == |Jobs(b, order)|
    ensures forall i :: 0 <= i < |r.log| ==>
              r.log[i].source == Jobs(b, order)[i].src
              && r.log[i].target == Target(base, Jobs(b, order)[i].cat, Jobs(b, order)[i].src)
    decreases |order|
  {
    if |order| == 0 then Relocated(t, [])
    else
      var k := order[|order| - 1];
      var prev := RelocateAll(t, base, b, order[..|order| - 1], fails);
      var next := RelocateCategory(prev.tree, base, k, Bucket(b, k), fails);
      Relocated(next.tree, prev.log + next.log)
  }

  /** Each log line moves a file to its destination. */
  lemma RelocateAllTargets(t: Node, base: Path, b: Buckets, order: seq<string>, fails: set<Path>)
    requires Classified(b, base)
    ensures var r := RelocateAll(t, base, b, order, fails);
            forall i :: 0 <= i < |r.log| ==>
              r.log[i].target == Destination(base, r.log[i].source) && base < r.log[i].source
  {
    JobsFromBuckets(b, order, base);
  }

  /** A settled regular file survives a category of moves whose files all belong to that category. */
  lemma {:induction false} MoveAllKeepsSettled(t: Node, base: Path, cat: string, files: seq<Path>, fails: set<Path>, d: Path)
    requires IsFile(t, d) && Settled(base, d)
    requires forall j :: 0 <= j < |files| ==> Category(files[j]) == cat
    ensures IsFile(MoveAll(t, base, cat, files, fails).tree, d)
    decreases |files|
  {
    if |files| > 0 {
      var init := files[..|files| - 1];
      var src := files[|files| - 1];
      MoveAllKeepsSettled(t, base, cat, init, fails, d);
      MoveKeepsFileAt(MoveAll(t, base, cat, init, fails).tree, src, Target(base, cat, src), fails, d);
    }
  }

  /** A file delivered by the earlier categories is still there after category `k` is relocated. */
  lemma KeepsEarlierDelivery(t: Node, base: Path, b: Buckets, order: seq<string>, fails: set<Path>, k: string, i: nat)
    requires Classified(b, base)
    requires var prev := RelocateAll(t, base, b, order, fails);
             i < |prev.log| && IsFile(prev.tree, prev.log[i].target)
    ensures var prev := RelocateAll(t, base, b, order, fails);
            IsFile(MoveAll(EnsureDir(prev.tree, base + [k]), base, k, Bucket(b, k), fails).tree, prev.log[i].target)
  {
    var prev := RelocateAll(t, base, b, order, fails);
    var folder := base + [k];
    var t0 := EnsureDir(prev.tree, folder);
    var d := prev.log[i].target;
    JobsFromBuckets(b, order, base);
    var job := Jobs(b, order)[i];
    assert prev.log[i].source == job.src && d == Target(base, job.cat, job.src);
    assert job.cat == Category(job.src);
    EnsureDirKeepsFiles(prev.tree, folder, d);
    DestinationIsSettled(base, job.src);
    MoveAllKeepsSettled(t0, base, k, Bucket(b, k), fails, d);
  }

  /** Every successful move's target still holds a regular file once all categories are done. */
  lemma {:induction false} RelocateAllDelivers(t: Node, base: Path, b: Buckets, order: seq<string>, fails: set<Path>)
    requires Classified(b, base)
    ensures Delivered(RelocateAll(t, base, b, order, fails))
    decreases |order|
  {
    var n := |order|;
    if n > 0 {
      var k := order[n - 1];
      var prev := RelocateAll(t, base, b, order[..n - 1], fails);
      var t0 := EnsureDir(prev.tree, base + [k]);
      var next := MoveAll(t0, base, k, Bucket(b, k), fails);
      var r := RelocateAll(t, base, b, order, fails);
      assert r.tree == next.tree && r.log == prev.log + next.log;
      RelocateAllDelivers(t, base, b, order[..n - 1], fails);
      MoveAllDelivers(t0, base, k, Bucket(b, k), fails);
      forall i | 0 <= i < |r.log| && r.log[i].Moved?
        ensures IsFile(r.tree, r.log[i].target)
      {
        if i < |prev.log| {
          assert r.log[i] == prev.log[i];
          KeepsEarlierDelivery(t, base, b, order[..n - 1], fails, k, i);
        } else {
          assert r.log[i] == next.log[i - |prev.log|];
        }
      }
    }
  }

  /** The base folder stays a directory. */
  lemma {:induction false} RelocateAllKeepsBase(t: Node, base: Path, b: Buckets, order: seq<string>, fails: set<Path>)
    requires IsDir(t, base) && Classified(b, base)
    ensures IsDir(RelocateAll(t, base, b, order, fails).tree, base)
    decreases |order|
  {
    var n := |order|;
    if n > 0 {
      var k := order[n - 1];
      var prev := RelocateAll(t, base, b, order[..n - 1], fails);
      RelocateAllKeepsBase(t, base, b, order[..n - 1], fails);
      EnsureDirKeepsDir(prev.tree, base + [k], base);
      MoveAllKeepsDir(EnsureDir(prev.tree, base + [k]), base, k, Bucket(b, k), fails, base);
    }
  }

  /** Regular files outside the base folder are left alone. */
  lemma {:induction false} RelocateAllFrame(t: Node, base: Path, b: Buckets, order: seq<string>, fails: set<Path>, d: Path)
    requires IsFile(t, d) && !(base <= d) && Classified(b, base)
    ensures Lookup(RelocateAll(t, base, b, order, fails).tree, d) == Lookup(t, d)
    decreases |order|
  {
    var n := |order|;
    if n > 0 {
      var k := order[n - 1];
      var prev := RelocateAll(t, base, b, order[..n - 1], fails);
      RelocateAllFrame(t, base, b, order[..n - 1], fails, d);
      RelocateCategoryFrame(prev.tree, base, k, Bucket(b, k), fails, d);
    }
  }

  /** No successful move in the log takes `d` away or writes to it. */
  predicate Untouched(log: seq<MoveOutcome>, d: Path)
  {
    forall j :: 0 <= j < |log| && log[j].Moved? ==> log[j].source != d && log[j].target != d
  }

  /** A regular file that no successful move takes or overwrites is left as it was. */
  lemma {:induction false} RelocateAllKeeps(t: Node, base: Path, b: Buckets, order: seq<string>, fails: set<Path>, d: Path)
    requires IsFile(t, d) && Untouched(RelocateAll(t, base, b, order, fails).log, d)
    ensures Lookup(RelocateAll(t, base, b, order, fails).tree, d) == Lookup(t, d)
    decreases |order|
  {
    var n := |order|;
    if n > 0 {
      var k := order[n - 1];
      var prev := RelocateAll(t, base, b, order[..n - 1], fails);
      var next := RelocateCategory(prev.tree, base, k, Bucket(b, k), fails);
      var r := RelocateAll(t, base, b, order, fails);
      assert r.tree == next.tree && r.log == prev.log + next.log;
      forall j | 0 <= j < |prev.log| && prev.log[j].Moved?
        ensures prev.log[j].source != d && prev.log[j].target != d
      {
        assert r.log[j] == prev.log[j];
      }
      forall j | 0 <= j < |next.log| && next.log[j].Moved?
        ensures next.log[j].source != d && next.log[j].target != d
      {
        assert r.log[|prev.log| + j] == next.log[j];
      }
      assert Untouched(prev.log, d);
      RelocateAllKeeps(t, base, b, order[..n - 1], fails, d);
      RelocateCategoryKeeps(prev.tree, base, k, Bucket(b, k), fails, d);
    }
  }

  /** The same for one category's pass. */
  lemma RelocateCategoryKeeps(t: Node, base: Path, k: string, files: seq<Path>, fails: set<Path>, d: Path)
    requires IsFile(t, d) && Untouched(RelocateCategory(t, base, k, files, fails).log, d)
    ensures Lookup(RelocateCategory(t, base, k, files, fails).tree, d) == Lookup(t, d)
  {
    var t0 := EnsureDir(t, base + [k]);
    var next := MoveAll(t0, base, k, files, fails);
    EnsureDirKeepsFiles(t, base + [k], d);
    forall j | 0 <= j < |files| && next.log[j].Moved?
      ensures files[j] != d && Target(base, k, files[j]) != d
    {
    }
    assert files[..0] == [];
    MoveAllKeeps(t0, base, k, files, fails, 0, d);
  }


  /** The `i`-th listed path is listed there for the first time. */
  predicate FirstListed(srcs: seq<Path>, i: nat)
    requires i < |srcs|
  {
    forall j :: 0 <= j < i ==> srcs[j] != srcs[i]
  }

  /**
    Nothing in `t` stands in the way of moving `p`: it is a regular file, the
    environment lets it move, no regular file has its category's name in the
    base folder, and no non-empty directory sits at its destination.
   */
  predicate Clear(t: Node, base: Path, fails: set<Path>, p: Path)
  {
    && IsFile(t, p) && p !in fails
    && !IsFile(t, base + [Category(p)])
    && !IsNonEmptyDir(t, Destination(base, p))
  }

  /** Nothing stands in the way of the `i`-th listed move, listed there for the first time. */
  predicate Unobstructed(t: Node, base: Path, fails: set<Path>, srcs: seq<Path>, i: nat)
    requires i < |srcs|
  {
    FirstListed(srcs, i) && Clear(t, base, fails, srcs[i])
  }

  /** No scheduled move takes `p` as its source. */
  predicate Unlisted(jobs: seq<Job>, p: Path)
  {
    forall j :: 0 <= j < |jobs| ==> jobs[j].src != p
  }

  /** A regular file that no log line takes as its source is still a regular file at the end. */
  lemma {:induction false} RelocateAllKeepsFile(t: Node, base: Path, b: Buckets, order: seq<string>, fails: set<Path>, p: Path)
    requires IsFile(t, p) && Unlisted(Jobs(b, order), p)
    ensures IsFile(RelocateAll(t, base, b, order, fails).tree, p)
    decreases |order|
  {
    var n := |order|;
    if n > 0 {
      var k := order[n - 1];
      var files := Bucket(b, k);
      var init := Jobs(b, order[..n - 1]);
      var prev := RelocateAll(t, base, b, order[..n - 1], fails);
      JobsSplit(b, order);
      forall j | 0 <= j < |init|
        ensures init[j].src != p
      {
        assert Jobs(b, order)[j] == init[j];
      }
      assert Unlisted(init, p);
      forall j | 0 <= j < |files|
        ensures files[j] != p
      {
        assert Jobs(b, order)[|init| + j].src == files[j];
      }
      RelocateAllKeepsFile(t, base, b, order[..n - 1], fails, p);
      RelocateCategoryKeepsFile(prev.tree, base, k, files, fails, p);
    }
  }

  /** The same for one category's pass over files other than `p`. */
  lemma RelocateCategoryKeepsFile(t: Node, base: Path, k: string, files: seq<Path>, fails: set<Path>, p: Path)
    requires IsFile(t, p) && p !in files
    ensures IsFile(RelocateCategory(t, base, k, files, fails).tree, p)
  {
    var t0 := EnsureDir(t, base + [k]);
    EnsureDirKeepsFiles(t, base + [k], p);
    assert files[..0] == [] && files[..|files|] == files;
    StaysFile(t0, base, k, files, fails, 0, |files|, p);
  }

  /**
    In a well-formed tree the run's moves create regular files only at
    depth `|base| + 2`, where the destinations are, and fill no directory
    at that depth or below.
   */
  lemma {:induction false} RelocateAllCreatesOnlyTargets(t: Node, base: Path, b: Buckets, order: seq<string>, fails: set<Path>, q: Path)
    requires WellFormed(t)
    ensures IsFile(RelocateAll(t, base, b, order, fails).tree, q) ==> IsFile(t, q) || |q| == |base| + 2
    ensures IsNonEmptyDir(RelocateAll(t, base, b, order, fails).tree, q) ==> IsNonEmptyDir(t, q) || |q| < |base| + 2
    decreases |order|
  {
    var n := |order|;
    if n > 0 {
      var k := order[n - 1];
      var prev := RelocateAll(t, base, b, order[..n - 1], fails);
      RelocateAllCreatesOnlyTargets(t, base, b, order[..n - 1], fails, q);
      RelocateAllWellFormed(t, base, b, order[..n - 1], fails);
      EnsureDirCreatesOnlyFolder(prev.tree, base + [k], q);
      EnsureDirWellFormed(prev.tree, base + [k]);
      MoveAllCreatesOnlyTargets(EnsureDir(prev.tree, base + [k]), base, k, Bucket(b, k), fails, q);
    }
  }

  /**
    A scheduled move of the last category in `order` is the first listing of
    its file exactly when it is the first in that category's bucket and no
    earlier category lists the file.
   */
  lemma FirstListedInLastCategory(b: Buckets, order: seq<string>, i: nat)
    requires |order| > 0 && |Jobs(b, order[..|order| - 1])| <= i < |Jobs(b, order)|
    ensures var init, k := order[..|order| - 1], order[|order| - 1];
            && Jobs(b, order)[i].src == Bucket(b, k)[i - |Jobs(b, init)|]
            && (FirstListed(Sources(Jobs(b, order)), i) <==>
                  && FirstListed(Bucket(b, k), i - |Jobs(b, init)|)
                  && Unlisted(Jobs(b, init), Bucket(b, k)[i - |Jobs(b, init)|]))
  {
    var k := order[|order| - 1];
    var init := order[..|order| - 1];
    var files := Bucket(b, k);
    var jobs := Jobs(b, order);
    var n := |Jobs(b, init)|;
    var m := i - n;
    JobsSplit(b, order);
    var p := files[m];
    assert jobs[i].src == p;
    if FirstListed(Sources(jobs), i) {
      forall j | 0 <= j < m
        ensures files[j] != p
      {
        assert jobs[n + j].src == files[j];
      }
      forall j | 0 <= j < n
        ensures Jobs(b, init)[j].src != p
      {
        assert Jobs(b, init)[j] == jobs[j];
      }
    }
    if FirstListed(files, m) && Unlisted(Jobs(b, init), p) {
      forall j | 0 <= j < i
        ensures jobs[j].src != p
      {
        if j < n {
          assert Jobs(b, init)[j] == jobs[j];
        } else {
          assert jobs[j].src == files[j - n];
        }
      }
    }
  }

  /** An unobstructed move of the last category in `order` is unobstructed in its bucket, and no earlier category lists its file. */
  lemma UnobstructedInLastCategory(t: Node, base: Path, b: Buckets, order: seq<string>, fails: set<Path>, i: nat)
    requires |order| > 0 && |Jobs(b, order[..|order| - 1])| <= i < |Jobs(b, order)|
    requires Unobstructed(t, base, fails, Sources(Jobs(b, order)), i)
    ensures i - |Jobs(b, order[..|order| - 1])| < |Bucket(b, order[|order| - 1])|
    ensures Unobstructed(t, base, fails, Bucket(b, order[|order| - 1]), i - |Jobs(b, order[..|order| - 1])|)
    ensures Unlisted(Jobs(b, order[..|order| - 1]), Bucket(b, order[|order| - 1])[i - |Jobs(b, order[..|order| - 1])|])
  {
    var k := order[|order| - 1];
    var m := i - |Jobs(b, order[..|order| - 1])|;
    FirstListedInLastCategory(b, order, i);
    assert Sources(Jobs(b, order))[i] == Bucket(b, k)[m];
  }

  /**
    Line `i` of the whole log is line `i` of the prefix's log when the prefix
    scheduled it, and otherwise the matching line of the last category's log.
   */
  lemma RelocateAllLog(t: Node, base: Path, b: Buckets, order: seq<string>, fails: set<Path>, i: nat)
    requires |order| > 0 && i < |Jobs(b, order)|
    ensures var prev := RelocateAll(t, base, b, order[..|order| - 1], fails);
            var k := order[|order| - 1];
            RelocateAll(t, base, b, order, fails).log[i] ==
              if i < |prev.log| then prev.log[i]
              else RelocateCategory(prev.tree, base, k, Bucket(b, k), fails).log[i - |prev.log|]
  {
    var prev := RelocateAll(t, base, b, order[..|order| - 1], fails);
    var k := order[|order| - 1];
    var next := RelocateCategory(prev.tree, base, k, Bucket(b, k), fails);
    assert RelocateAll(t, base, b, order, fails).log == prev.log + next.log;
  }

  /** A scheduled move of the earlier categories is unobstructed in the prefix's schedule when it is in the whole one. */
  lemma UnobstructedInPrefix(t: Node, base: Path, b: Buckets, order: seq<string>, fails: set<Path>, i: nat)
    requires |order| > 0 && i < |Jobs(b, order[..|order| - 1])|
    requires Unobstructed(t, base, fails, Sources(Jobs(b, order)), i)
    ensures Unobstructed(t, base, fails, Sources(Jobs(b, order[..|order| - 1])), i)
  {
    var before := Jobs(b, order[..|order| - 1]);
    var jobs := Jobs(b, order);
    JobsSplit(b, order);
    assert before[i] == jobs[i];
    assert Clear(t, base, fails, Sources(before)[i]);
    forall j | 0 <= j < i
      ensures Sources(before)[j] != Sources(before)[i]
    {
      assert before[j] == jobs[j];
    }
  }

  /**
    Move `m` of category `k`, relocated after the categories `init`, succeeds
    when the base folder is still a directory, the earlier categories never
    listed its file, and nothing stands in its way in the bucket.
   */
  lemma CategoryMoves(t: Node, base: Path, b: Buckets, init: seq<string>, fails: set<Path>, k: string, m: nat)
    requires WellFormed(t) && IsDir(RelocateAll(t, base, b, init, fails).tree, base)
    requires m < |Bucket(b, k)| && Category(Bucket(b, k)[m]) == k
    requires Unobstructed(t, base, fails, Bucket(b, k), m) && Unlisted(Jobs(b, init), Bucket(b, k)[m])
    ensures RelocateCategory(RelocateAll(t, base, b, init, fails).tree, base, k, Bucket(b, k), fails).log[m].Moved?
  {
    var files := Bucket(b, k);
    var p := files[m];
    var dst := Target(base, k, p);
    var prev := RelocateAll(t, base, b, init, fails);
    var folder := base + [k];
    RelocateAllWellFormed(t, base, b, init, fails);
    RelocateAllKeepsFile(t, base, b, init, fails, p);
    RelocateAllCreatesOnlyTargets(t, base, b, init, fails, folder);
    RelocateAllCreatesOnlyTargets(t, base, b, init, fails, dst);
    assert Parent(folder) == base;
    EnsureDirCreates(prev.tree, folder);
    EnsureDirCreatesOnlyFolder(prev.tree, folder, folder);
    EnsureDirCreatesOnlyFolder(prev.tree, folder, dst);
    EnsureDirKeepsFiles(prev.tree, folder, p);
    EnsureDirWellFormed(prev.tree, folder);
    MoveAllMoves(EnsureDir(prev.tree, folder), base, k, files, fails, m);
  }

  /** A scheduled move of the last category in `order` succeeds when nothing stands in its way. */
  lemma LastCategoryMoves(t: Node, base: Path, b: Buckets, order: seq<string>, fails: set<Path>, i: nat)
    requires WellFormed(t) && IsDir(t, base) && Classified(b, base)
    requires i < |Jobs(b, order)| && Unobstructed(t, base, fails, Sources(Jobs(b, order)), i)
    requires |order| > 0 && |Jobs(b, order[..|order| - 1])| <= i
    ensures RelocateAll(t, base, b, order, fails).log[i].Moved?
  {
    var k := order[|order| - 1];
    var init := order[..|order| - 1];
    var m := i - |Jobs(b, init)|;
    RelocateAllKeepsBase(t, base, b, init, fails);
    UnobstructedInLastCategory(t, base, b, order, fails, i);
    assert Category(Bucket(b, k)[m]) == k;
    CategoryMoves(t, base, b, init, fails, k, m);
    RelocateAllLog(t, base, b, order, fails, i);
  }

  /** Scheduled move `i` succeeds when nothing stands in its way in the initial tree. */
  lemma {:induction false} RelocateAllMoves(t: Node, base: Path, b: Buckets, order: seq<string>, fails: set<Path>, i: nat)
    requires WellFormed(t) && IsDir(t, base) && Classified(b, base)
    requires i < |Jobs(b, order)| && Unobstructed(t, base, fails, Sources(Jobs(b, order)), i)
    ensures RelocateAll(t, base, b, order, fails).log[i].Moved?
    decreases |order|
  {
    var init := order[..|order| - 1];
    if |Jobs(b, init)| <= i {
      LastCategoryMoves(t, base, b, order, fails, i);
    } else {
      UnobstructedInPrefix(t, base, b, order, fails, i);
      RelocateAllMoves(t, base, b, init, fails, i);
      RelocateAllLog(t, base, b, order, fails, i);
    }
  }

  lemma {:induction false} RelocateAllWellFormed(t: Node, base: Path, b: Buckets, order: seq<string>, fails: set<Path>)
    requires WellFormed(t)
    ensures WellFormed(RelocateAll(t, base, b, order, fails).tree)
    decreases |order|
  {
    var n := |order|;
    if n > 0 {
      var k := order[n - 1];
      var prev := RelocateAll(t, base, b, order[..n - 1], fails);
      RelocateAllWellFormed(t, base, b, order[..n - 1], fails);
      EnsureDirWellFormed(prev.tree, base + [k]);
      MoveAllWellFormed(EnsureDir(prev.tree, base + [k]), base, k, Bucket(b, k), fails);
    }
  }

  // ---------------------------------------------------------------------------
  // The whole run

  /** "Specified folder does not exist!" */
  datatype RunError = NotADirectory

  /**
    What a run leaves behind and reports: the tree, the scanned paths (their
    number is "Total files classified"), the extension counters behind the
    chart, and the move log.
   */
  datatype Summary = Summary(tree: Node, files: seq<Path>, counts: Counts, log: seq<MoveOutcome>)

  /** The scan of the base folder with cleared counters. */
  function ScanBase(fs: Node, base: Path, exclude: Path): (r: Scan)
    requires IsDir(fs, base)
    ensures forall p :: p in r.files ==> base < p && p != exclude
  {
    ListFiles(Lookup(fs, base).value, base, exclude, map[])
  }

  /**
    The Classify button on the tree `fs`: `order` is the bucket map's
    enumeration order, `fails` the paths whose move the environment makes
    fail.  A base path that is not a directory is rejected and nothing
    changes; otherwise the base folder is still a directory at the end.
   */
  function Run(fs: Node, base: Path, exclude: Path, order: seq<string>, fails: set<Path>): (r: Result<Summary, RunError>)
    ensures r.Err? <==> !IsDir(fs, base)
    ensures r.Ok? ==> IsDir(r.value.tree, base)
  {
    if !IsDir(fs, base) then Err(NotADirectory)
    else
      var scan := ScanBase(fs, base, exclude);
      var buckets := Classify(scan.files);
      ClassifyIsClassified(scan.files, base);
      var moved := RelocateAll(fs, base, buckets, order, fails);
      RelocateAllKeepsBase(fs, base, buckets, order, fails);
      PruneAtBase(moved.tree, base);
      Ok(Summary(PruneAt(moved.tree, base), scan.files, scan.counts, moved.log))
  }

  /** The stages of a run, as separate facts. */
  lemma RunSteps(fs: Node, base: Path, exclude: Path, order: seq<string>, fails: set<Path>)
    requires IsDir(fs, base)
    ensures var scan := ScanBase(fs, base, exclude);
            var moved := RelocateAll(fs, base, Classify(scan.files), order, fails);
            && Classified(Classify(scan.files), base)
            && IsDir(moved.tree, base)
            && Run(fs, base, exclude, order, fails) == Ok(Summary(PruneAt(moved.tree, base), scan.files, scan.counts, moved.log))
  {
    var scan := ScanBase(fs, base, exclude);
    ClassifyIsClassified(scan.files, base);
    RelocateAllKeepsBase(fs, base, Classify(scan.files), order, fails);
  }

  /** The reported total is the number of scanned files, and the counters add up to it. */
  lemma RunCounts(fs: Node, base: Path, exclude: Path, order: seq<string>, fails: set<Path>)
    requires IsDir(fs, base)
    ensures var s := Run(fs, base, exclude, order, fails).value;
            && Total(s.counts) == |s.files|
            && forall e :: Get(s.counts, e) == Occurrences(s.files, e)
  {
    RunSteps(fs, base, exclude, order, fails);
    ListFilesCounts(Lookup(fs, base).value, base, exclude);
  }

  /** The scan collects exactly the regular files below the base folder other than the excluded one. */
  lemma ScanBaseCollects(fs: Node, base: Path, exclude: Path, p: Path)
    requires IsDir(fs, base) && WellFormed(fs)
    ensures p in ScanBase(fs, base, exclude).files <==> base < p && p != exclude && IsFile(fs, p)
  {
    var sub := Lookup(fs, base).value;
    var files := ScanBase(fs, base, exclude).files;
    if base < p {
      var rel := p[|base|..];
      assert p == base + rel;
      LookupAppend(fs, base, rel);
      if p in files {
        WellFormedBelow(fs, base);
        ScanSound(sub.name, sub.children, base, exclude, map[]);
      } else if p != exclude && IsFile(fs, p) {
        ScanComplete(sub.name, sub.children, base, exclude, map[], rel);
      }
    }
  }

  /** The run reports, and moves, exactly the regular files below the base folder other than the excluded one. */
  lemma RunCollectsFiles(fs: Node, base: Path, exclude: Path, order: seq<string>, fails: set<Path>, p: Path)
    requires IsDir(fs, base) && WellFormed(fs)
    ensures p in Run(fs, base, exclude, order, fails).value.files <==> base < p && p != exclude && IsFile(fs, p)
  {
    RunSteps(fs, base, exclude, order, fails);
    ScanBaseCollects(fs, base, exclude, p);
  }

  /**
    With the categories in an enumeration order, every scanned file gets
    exactly one log line, and each line names the file's destination.
   */
  lemma RunLogsEveryFile(fs: Node, base: Path, exclude: Path, order: seq<string>, fails: set<Path>)
    requires IsDir(fs, base)
    requires Enumerates(order, Classify(ScanBase(fs, base, exclude).files))
    ensures var s := Run(fs, base, exclude, order, fails).value;
            && multiset(LogSources(s.log)) == multiset(s.files)
            && |s.log| == |s.files|
            && forall i :: 0 <= i < |s.log| ==> s.log[i].target == Destination(base, s.log[i].source)
  {
    var files := ScanBase(fs, base, exclude).files;
    var b := Classify(files);
    var moved := RelocateAll(fs, base, b, order, fails);
    RunSteps(fs, base, exclude, order, fails);
    JobsCoverScan(files, order);
    RelocateAllTargets(fs, base, b, order, fails);
    assert LogSources(moved.log) == Sources(Jobs(b, order));
  }

  /** Every file reported as moved is, at the end, a regular file at its destination. */
  lemma RunDelivers(fs: Node, base: Path, exclude: Path, order: seq<string>, fails: set<Path>)
    requires IsDir(fs, base)
    ensures var s := Run(fs, base, exclude, order, fails).value;
            forall i :: 0 <= i < |s.log| && s.log[i].Moved? ==>
              s.log[i].target == Destination(base, s.log[i].source) && IsFile(s.tree, s.log[i].target)
  {
    var files := ScanBase(fs, base, exclude).files;
    var b := Classify(files);
    var moved := RelocateAll(fs, base, b, order, fails);
    RunSteps(fs, base, exclude, order, fails);
    RelocateAllTargets(fs, base, b, order, fails);
    RelocateAllDelivers(fs, base, b, order, fails);
    forall i | 0 <= i < |moved.log| && moved.log[i].Moved?
      ensures IsFile(PruneAt(moved.tree, base), moved.log[i].target)
    {
      PruneAtKeepsFiles(moved.tree, base, moved.log[i].target);
    }
  }

  /**
    A file whose move failed is, at the end, still where it was with its
    contents, provided no other log line takes it or sends another file to
    its path.
   */
  lemma RunFailedSourceStays(fs: Node, base: Path, exclude: Path, order: seq<string>, fails: set<Path>, i: nat)
    requires IsDir(fs, base) && WellFormed(fs)
    requires var s := Run(fs, base, exclude, order, fails).value;
             && i < |s.log| && s.log[i].Failed?
             && forall j :: 0 <= j < |s.log| && j != i ==>
                  s.log[j].source != s.log[i].source && s.log[j].target != s.log[i].source
    ensures var s := Run(fs, base, exclude, order, fails).value;
            && IsFile(fs, s.log[i].source)
            && Lookup(s.tree, s.log[i].source) == Lookup(fs, s.log[i].source)
  {
    var files := ScanBase(fs, base, exclude).files;
    var b := Classify(files);
    var moved := RelocateAll(fs, base, b, order, fails);
    var p := moved.log[i].source;
    RunSteps(fs, base, exclude, order, fails);
    JobsAreListed(files, order);
    ScanBaseCollects(fs, base, exclude, p);
    RelocateAllKeeps(fs, base, b, order, fails, p);
    PruneAtKeepsFiles(moved.tree, base, p);
  }

  /**
    A collected file is moved, and a regular file sits at its destination at
    the end, when it is listed for the first time, the environment lets it
    move, no regular file in the base folder has its category's name, and no
    non-empty directory sits at its destination.
   */
  lemma RunMovesFile(fs: Node, base: Path, exclude: Path, order: seq<string>, fails: set<Path>, i: nat)
    requires IsDir(fs, base) && WellFormed(fs)
    requires i < |Run(fs, base, exclude, order, fails).value.log|
    requires Unobstructed(fs, base, fails, LogSources(Run(fs, base, exclude, order, fails).value.log), i)
    ensures var s := Run(fs, base, exclude, order, fails).value;
            && s.log[i].Moved?
            && IsFile(s.tree, Destination(base, s.log[i].source))
  {
    var files := ScanBase(fs, base, exclude).files;
    var b := Classify(files);
    var moved := RelocateAll(fs, base, b, order, fails);
    var p := moved.log[i].source;
    RunSteps(fs, base, exclude, order, fails);
    JobsAreListed(files, order);
    ScanBaseCollects(fs, base, exclude, p);
    RelocateAllTargets(fs, base, b, order, fails);
    assert LogSources(moved.log) == Sources(Jobs(b, order));
    RelocateAllMoves(fs, base, b, order, fails, i);
    RunDelivers(fs, base, exclude, order, fails);
  }

  /** No directory strictly below the base folder is empty at the end. */
  lemma RunLeavesNoEmptyDirs(fs: Node, base: Path, exclude: Path, order: seq<string>, fails: set<Path>, q: Path)
    requires IsDir(fs, base)
    requires base < q && IsDir(Run(fs, base, exclude, order, fails).value.tree, q)
    ensures IsNonEmptyDir(Run(fs, base, exclude, order, fails).value.tree, q)
  {
    var files := ScanBase(fs, base, exclude).files;
    var moved := RelocateAll(fs, base, Classify(files), order, fails);
    RunSteps(fs, base, exclude, order, fails);
    var rel := q[|base|..];
    assert q == base + rel;
    PruneAtLeavesNoEmptyDirs(moved.tree, base, rel);
  }

  /** Regular files outside the base folder are untouched. */
  lemma RunKeepsOutside(fs: Node, base: Path, exclude: Path, order: seq<string>, fails: set<Path>, d: Path)
    requires IsDir(fs, base) && IsFile(fs, d) && !(base <= d)
    ensures Lookup(Run(fs, base, exclude, order, fails).value.tree, d) == Lookup(fs, d)
  {
    var files := ScanBase(fs, base, exclude).files;
    var b := Classify(files);
    var moved := RelocateAll(fs, base, b, order, fails);
    RunSteps(fs, base, exclude, order, fails);
    RelocateAllFrame(fs, base, b, order, fails, d);
    PruneAtKeepsFiles(moved.tree, base, d);
  }

  /** A run keeps sibling names distinct. */
  lemma RunWellFormed(fs: Node, base: Path, exclude: Path, order: seq<string>, fails: set<Path>)
    requires IsDir(fs, base) && WellFormed(fs)
    ensures WellFormed(Run(fs, base, exclude, order, fails).value.tree)
  {
    var files := ScanBase(fs, base, exclude).files;
    var b := Classify(files);
    var moved := RelocateAll(fs, base, b, order, fails);
    RunSteps(fs, base, exclude, order, fails);
    RelocateAllWellFormed(fs, base, b, order, fails);
    PruneAtWellFormed(moved.tree, base);
  }
}

=== FILE: classifier.dfy ===
/**
  The classifier (`classifyFiles`): paths are grouped into buckets keyed by
  the case-folded extension of their last segment, each bucket keeping the
  input order.
 */
module Classifier {
  import opened Paths
  import opened Extension
  import opened Tally

  /** Category key -> the paths in that category. */
  type Buckets = map<string, seq<Path>>

  /** The bucket key of a path: `getFileExtension(file.getName()).toLowerCase()`. */
  function Category(p: Path): string
  {
    Lower(FileExtension(Name(p)))
  }

  /** The paths of `files` whose key is `k`, in input order. */
  function Filter(files: seq<Path>, key: Path -> string, k: string): seq<Path>
    decreases |files|
  {
    if |files| == 0 then []
    else
      var s := Filter(files[..|files| - 1], key, k);
      if key(files[|files| - 1]) == k then s + [files[|files| - 1]] else s
  }

  /** Reference definition of a bucket: the paths of `files` in category `k`, in input order. */
  function Select(files: seq<Path>, k: string): seq<Path>
  {
    Filter(files, Category, k)
  }

  /** The bucket under `k`, or nothing. */
  function Bucket(b: Buckets, k: string): seq<Path>
  {
    if k in b then b[k] else []
  }

  /** The number of paths in each bucket. */
  function Sizes(b: Buckets): map<string, nat>
  {
    map k | k in b :: |b[k]|
  }

  /**
    `classifyFiles`: for each path in order, `putIfAbsent` an empty list under
    its category and append the path.  Every bucket is exactly the reference
    selection, and only categories that occur get a bucket.
   */
  function Classify(files: seq<Path>): (r: Buckets)
    ensures forall k :: Bucket(r, k) == Select(files, k)
    ensures forall k :: k in r <==> |Select(files, k)| > 0
    decreases |files|
  {
    if |files| == 0 then map[]
    else
      var m := Classify(files[..|files| - 1]);
      var p := files[|files| - 1];
      var k := Category(p);
      m[k := Bucket(m, k) + [p]]
  }

  // ---------------------------------------------------------------------------
  // The selection

  /** One more path: it joins the selection exactly when it has the key. */
  lemma FilterSnoc(init: seq<Path>, last: Path, key: Path -> string, k: string)
    ensures Filter(init + [last], key, k) == if key(last) == k then Filter(init, key, k) + [last] else Filter(init, key, k)
  {
    assert (init + [last])[..|init|] == init;
  }

  lemma {:induction false} FilterMembers(files: seq<Path>, key: Path -> string, k: string, p: Path)
    ensures p in Filter(files, key, k) <==> p in files && key(p) == k
    decreases |files|
  {
    if |files| > 0 {
      var init := files[..|files| - 1];
      var last := files[|files| - 1];
      assert files == init + [last];
      FilterSnoc(init, last, key, k);
      FilterMembers(init, key, k, p);
    }
  }

  /** A path is selected under `k` exactly when it is an input path of category `k`. */
  lemma SelectMembers(files: seq<Path>, k: string, p: Path)
    ensures p in Select(files, k) <==> p in files && Category(p) == k
  {
    FilterMembers(files, Category, k, p);
  }

  lemma CountSnoc(s: seq<Path>, x: Path, p: Path)
    ensures multiset(s + [x])[p] == multiset(s)[p] + (if x == p then 1 else 0)
  {
    assert multiset(s + [x]) == multiset(s) + multiset{x};
  }

  lemma {:induction false} FilterCount(files: seq<Path>, key: Path -> string, k: string, p: Path)
    ensures multiset(Filter(files, key, k))[p] == if key(p) == k then multiset(files)[p] else 0
    decreases |files|
  {
    if |files| > 0 {
      var init := files[..|files| - 1];
      var last := files[|files| - 1];
      assert files == init + [last];
      FilterSnoc(init, last, key, k);
      FilterCount(init, key, k, p);
      CountSnoc(init, last, p);
      CountSnoc(Filter(init, key, k), last, p);
    }
  }

  /** A bucket holds every occurrence of each path of its category, and nothing else. */
  lemma SelectCount(files: seq<Path>, k: string, p: Path)
    ensures multiset(Select(files, k))[p] == if Category(p) == k then multiset(files)[p] else 0
  {
    FilterCount(files, Category, k, p);
  }

  lemma {:induction false} FilterAppend(a: seq<Path>, b: seq<Path>, key: Path -> string, k: string)
    ensures Filter(a + b, key, k) == Filter(a, key, k) + Filter(b, key, k)
    decreases |b|
  {
    if |b| == 0 {
      assert a + b == a;
    } else {
      var init := b[..|b| - 1];
      assert (a + b)[..|a + b| - 1] == a + init;
      FilterAppend(a, init, key, k);
    }
  }

  lemma SelectAppend(a: seq<Path>, b: seq<Path>, k: string)
    ensures Select(a + b, k) == Select(a, k) + Select(b, k)
  {
    FilterAppend(a, b, Category, k);
  }

  // ---------------------------------------------------------------------------
  // Properties of classifyFiles

  /**
    Every path lands in exactly one bucket: the one keyed by its category.
   */
  lemma ClassifyPlacesEachPath(files: seq<Path>, p: Path)
    requires p in files
    ensures Category(p) in Classify(files)
    ensures p in Classify(files)[Category(p)]
    ensures forall k :: k in Classify(files) && p in Classify(files)[k] ==> k == Category(p)
  {
    SelectMembers(files, Category(p), p);
    forall k | k in Classify(files) && p in Classify(files)[k]
      ensures k == Category(p)
    {
      SelectMembers(files, k, p);
    }
  }

  /** Bucket contents are paths of the input, of that bucket's category, and no bucket is empty. */
  lemma ClassifyBucketsAreHomogeneous(files: seq<Path>, k: string)
    requires k in Classify(files)
    ensures |Classify(files)[k]| > 0
    ensures forall p :: p in Classify(files)[k] ==> p in files && Category(p) == k
  {
    forall p | p in Classify(files)[k]
      ensures p in files && Category(p) == k
    {
      SelectMembers(files, k, p);
    }
  }

  /**
    Order within a bucket is input order: classifying the first `i` paths
    yields a prefix of every final bucket.
   */
  lemma ClassifyKeepsOrder(files: seq<Path>, i: nat, k: string)
    requires i <= |files|
    ensures Bucket(Classify(files[..i]), k) <= Bucket(Classify(files), k)
  {
    SelectPrefix(files, i, k);
  }

  lemma SelectPrefix(files: seq<Path>, i: nat, k: string)
    requires i <= |files|
    ensures Select(files[..i], k) <= Select(files, k)
  {
    var a, b := files[..i], files[i..];
    assert files == a + b;
    SelectAppend(a, b, k);
  }

  /** The buckets' sizes add up to the number of input paths: nothing is lost or duplicated. */
  lemma {:induction false} ClassifyPartitions(files: seq<Path>)
    ensures Total(Sizes(Classify(files))) == |files|
    decreases |files|
  {
    if |files| == 0 {
      assert Sizes(Classify(files)) == map[];
    } else {
      var init := files[..|files| - 1];
      var m := Classify(init);
      var p := files[|files| - 1];
      var k := Category(p);
      var b := Bucket(m, k) + [p];
      ClassifyPartitions(init);
      assert Classify(files) == m[k := b];
      SizesUpdate(m, k, b);
      TotalUpdate(Sizes(m), k, |b|);
    }
  }

  lemma SizesUpdate(m: Buckets, k: string, b: seq<Path>)
    ensures Sizes(m[k := b]) == Sizes(m)[k := |b|]
    ensures Get(Sizes(m), k) == |Bucket(m, k)|
  {
    var l, r := Sizes(m[k := b]), Sizes(m)[k := |b|];
    assert l.Keys == r.Keys;
    forall j | j in l
      ensures l[j] == r[j]
    {
    }
  }

  /**
    Names whose extensions differ only in letter case fall in one category,
    so they share a bucket, while the scanner's raw counters tell them apart.
   */
  lemma CaseVariantsShareCategory(dir: Path)
    ensures Category(dir + ["b.TXT"]) == Category(dir + ["a.txt"]) == "txt"
    ensures FileExtension(Name(dir + ["b.TXT"])) != FileExtension(Name(dir + ["a.txt"]))
    ensures Category(dir + ["notes"]) == Unknown
  {
    assert Name(dir + ["b.TXT"]) == "b.TXT" && Name(dir + ["a.txt"]) == "a.txt";
    assert Name(dir + ["notes"]) == "notes";
    ExtensionCaseFolds();
    assert !HasSuffix("notes") by {
      assert forall i :: 0 <= i < |"notes"| ==> "notes"[i] != '.';
    }
    LowerUnknown();
  }

  /**
    A hidden file is classified like any other name: its category is the
    text after its leading dot.
   */
  lemma DotfileCategory(dir: Path)
    ensures Category(dir + [".gitignore"]) == "gitignore"
  {
    assert Name(dir + [".gitignore"]) == "" + "." + "gitignore";
    ExtensionIsUnique("" + "." + "gitignore", "", "gitignore");
    assert Lower("gitignore") == "gitignore";
  }

  /**
    Two names whose extensions have the same length and agree letter by
    letter once folded to lower case fall in one category, whatever their
    folders and base names.
   */
  lemma CaseInsensitiveCategory(p: Path, q: Path, pre1: string, pre2: string, e1: string, e2: string)
    requires |p| > 0 && |q| > 0
    requires Name(p) == pre1 + "." + e1 && Name(q) == pre2 + "." + e2
    requires |e1| > 0 && '.' !in e1 && '.' !in e2
    requires |e1| == |e2|
    requires forall i :: 0 <= i < |e1| ==> LowerChar(e1[i]) == LowerChar(e2[i])
    ensures Category(p) == Category(q)
    ensures Category(p) == Lower(e1)
  {
    ExtensionIsUnique(Name(p), pre1, e1);
    ExtensionIsUnique(Name(q), pre2, e2);
    assert Lower(e1) == Lower(e2);
  }
}

=== FILE: extension.dfy ===
/**
  The extension resolver: the category label of a file name is the text after
  its last '.', or "unknown" when there is no such text.  Case folding is a
  separate step (`Lower`), applied by the classifier but not by the scanner.
 */
module Extension {

  /** The label given to names without a usable suffix. */
  const Unknown: string := "unknown"

  /** Java's `String.lastIndexOf(c)`: an index holding `c`, or -1. */
  function LastIndexOf(s: string, c: char): (r: int)
    ensures -1 <= r < |s|
    ensures r >= 0 ==> s[r] == c
  {
    if |s| == 0 then -1
    else if s[|s| - 1] == c then |s| - 1
    else LastIndexOf(s[..|s| - 1], c)
  }

  /** It is the last such index, and -1 only when `c` does not occur. */
  lemma {:induction false} LastIndexOfIsLast(s: string, c: char)
    ensures LastIndexOf(s, c) >= 0 ==> forall j :: LastIndexOf(s, c) < j < |s| ==> s[j] != c
    ensures LastIndexOf(s, c) == -1 <==> c !in s
  {
    if |s| > 0 && s[|s| - 1] != c {
      LastIndexOfIsLast(s[..|s| - 1], c);
      assert s == s[..|s| - 1] + [s[|s| - 1]];
    }
  }

  /** The name contains a '.' and does not end in one. */
  predicate HasSuffix(name: string)
  {
    '.' in name && name[|name| - 1] != '.'
  }

  /**
    `getFileExtension`: the suffix after the last '.', when that dot exists and
    is not the final character; otherwise "unknown".
   */
  function FileExtension(name: string): (r: string)
    ensures !HasSuffix(name) ==> r == Unknown
    ensures HasSuffix(name) ==> 0 < |r| < |name|
  {
    var dot := LastIndexOf(name, '.');
    LastIndexOfIsLast(name, '.');
    if dot != -1 && dot < |name| - 1 then name[dot + 1..] else Unknown
  }

  /**
    With a usable suffix, the extension is a non-empty, dot-free text that
    follows the name's last '.': the name is a prefix, a '.', and the result.
   */
  lemma ExtensionShape(name: string)
    requires HasSuffix(name)
    ensures var r := FileExtension(name);
            && 0 < |r| < |name|
            && '.' !in r
            && name[|name| - |r| - 1] == '.'
            && name == name[..|name| - |r| - 1] + "." + r
  {
    var dot := LastIndexOf(name, '.');
    LastIndexOfIsLast(name, '.');
    assert name == name[..dot] + "." + name[dot + 1..];
  }

  /**
    The suffix is determined by the name alone: any non-empty dot-free text
    that follows a '.' at the end of the name is the extension.
   */
  lemma ExtensionIsUnique(name: string, prefix: string, ext: string)
    requires name == prefix + "." + ext
    requires |ext| > 0 && '.' !in ext
    ensures HasSuffix(name)
    ensures FileExtension(name) == ext
  {
    assert name[|prefix|] == '.';
    assert name[|name| - 1] == ext[|ext| - 1];
    ExtensionShape(name);
    var r := FileExtension(name);
    assert r == name[|name| - |r|..];
  }

  /**
    "unknown" comes back exactly when the name has no usable suffix, or when
    its suffix is literally "unknown".
   */
  lemma UnknownExactly(name: string)
    ensures FileExtension(name) == Unknown <==>
              !HasSuffix(name) || (|name| > |Unknown| && name[|name| - |Unknown| - 1..] == "." + Unknown)
  {
    if HasSuffix(name) && |name| > |Unknown| && name[|name| - |Unknown| - 1..] == "." + Unknown {
      var prefix := name[..|name| - |Unknown| - 1];
      assert name == prefix + "." + Unknown;
      ExtensionIsUnique(name, prefix, Unknown);
    }
    if HasSuffix(name) && FileExtension(name) == Unknown {
      ExtensionShape(name);
      assert name[|name| - |Unknown| - 1..] == "." + Unknown;
    }
  }

  /** Java's `Character.toLowerCase` restricted to ASCII letters. */
  function LowerChar(c: char): char
  {
    if 'A' <= c <= 'Z' then (c as int + 32) as char else c
  }

  /** `String.toLowerCase()` on ASCII letters; every other character is kept. */
  function Lower(s: string): (r: string)
    ensures |r| == |s|
  {
    seq(|s|, i requires 0 <= i < |s| => LowerChar(s[i]))
  }

  /** Folding twice is folding once. */
  lemma LowerIdempotent(s: string)
    ensures Lower(Lower(s)) == Lower(s)
  {
  }

  lemma LowerUnknown()
    ensures Lower(Unknown) == Unknown
  {
  }

  lemma LowerTxt()
    ensures Lower("TXT") == "txt" && Lower("txt") == "txt"
  {
    assert LowerChar('T') == 't' && LowerChar('X') == 'x';
  }

  /** Two labels that differ only in ASCII letter case fold to the same text. */
  lemma ExtensionCaseFolds()
    ensures Lower(FileExtension("b.TXT")) == Lower(FileExtension("a.txt")) == "txt"
    ensures FileExtension("b.TXT") != FileExtension("a.txt")
  {
    ExtensionIsUnique("b.TXT", "b", "TXT");
    ExtensionIsUnique("a.txt", "a", "txt");
    LowerTxt();
    assert "TXT"[0] != "txt"[0];
  }
}

=== FILE: paths.dfy ===
/** Paths as sequences of name segments, and the relations between them. */
module Paths {

  /** A path from the file-system root; `[]` is the root itself. */
  type Path = seq<string>

  /** The last segment (Java's `File.getName()`); the root's name is empty. */
  function Name(p: Path): string
  {
    if |p| == 0 then "" else p[|p| - 1]
  }

  /** The directory that holds `p`. */
  function Parent(p: Path): Path
    requires |p| > 0
  {
    p[..|p| - 1]
  }

  /** Neither path lies on the way to the other. */
  predicate Incomparable(p: Path, q: Path)
  {
    !(p <= q) && !(q <= p)
  }
}

=== FILE: pruner.dfy ===
/**
  The clean-up pass (`deleteEmptyFolders`): every directory below the base
  folder is first cleaned itself, then deleted when nothing is left in it.
  Regular files are never touched and the base folder itself is never
  deleted.  Each directory's listing is taken before its entries are
  visited, so deleting one entry does not change which siblings are visited.
 */
module Pruner {
  import opened Wrappers
  import opened Paths
  import opened FileTree
  import opened Tally
  import opened Scanner

  /** An entry the pass deletes once its own contents are cleaned: a directory with nothing in it. */
  predicate Empty(n: Node)
  {
    n.Dir? && |n.children| == 0
  }

  /** `deleteEmptyFolders(n)`: `n` keeps its name and kind, only what lies below it is cleaned. */
  function Prune(n: Node): (r: Node)
    ensures r.name == n.name && r.Dir? == n.Dir?
    ensures n.File? ==> r == n
    decreases n, 1
  {
    match n
    case File(_, _) => n
    case Dir(nm, cs) => Dir(nm, PruneEntries(cs))
  }

  /** The loop over one listing: files stay, directories are cleaned and dropped when empty. */
  function PruneEntries(cs: seq<Node>): (r: seq<Node>)
    ensures |r| <= |cs|
    ensures forall j :: 0 <= j < |r| ==> !Empty(r[j])
    decreases cs, 0
  {
    if cs == [] then []
    else
      var p := Prune(cs[0]);
      var rest := PruneEntries(cs[1..]);
      if Empty(p) then rest else [p] + rest
  }

  /** No directory strictly below `n` is empty. */
  predicate Tidy(n: Node)
    decreases n
  {
    match n
    case File(_, _) => true
    case Dir(_, cs) => forall i :: 0 <= i < |cs| ==> !Empty(cs[i]) && Tidy(cs[i])
  }

  // ---------------------------------------------------------------------------
  // No empty directory is left

  lemma {:induction false} PruneTidy(n: Node)
    ensures Tidy(Prune(n))
    decreases n, 1
  {
    match n
    case File(_, _) =>
    case Dir(_, cs) => PruneEntriesTidy(cs);
  }

  lemma {:induction false} PruneEntriesTidy(cs: seq<Node>)
    ensures forall j :: 0 <= j < |PruneEntries(cs)| ==> Tidy(PruneEntries(cs)[j])
    decreases cs, 0
  {
    if cs != [] {
      PruneTidy(cs[0]);
      PruneEntriesTidy(cs[1..]);
    }
  }

  /** The path form of `Tidy`: every directory strictly below the root has an entry. */
  lemma {:induction false} TidyHasNoEmptyDirs(n: Node, q: Path)
    requires Tidy(n) && |q| > 0 && IsDir(n, q)
    ensures IsNonEmptyDir(n, q)
    decreases |q|
  {
    var i := Find(n.children, q[0]).value;
    if |q| > 1 {
      TidyHasNoEmptyDirs(n.children[i], q[1..]);
    }
  }

  /** A tidy tree is left as it is. */
  lemma {:induction false} TidyIsFixed(n: Node)
    requires Tidy(n)
    ensures Prune(n) == n
    decreases n, 1
  {
    match n
    case File(_, _) =>
    case Dir(_, cs) => TidyEntriesAreFixed(cs);
  }

  lemma {:induction false} TidyEntriesAreFixed(cs: seq<Node>)
    requires forall i :: 0 <= i < |cs| ==> !Empty(cs[i]) && Tidy(cs[i])
    ensures PruneEntries(cs) == cs
    decreases cs, 0
  {
    if cs != [] {
      TidyIsFixed(cs[0]);
      TidyEntriesAreFixed(cs[1..]);
      assert [cs[0]] + cs[1..] == cs;
    }
  }

  /** The pass changes a tree exactly when it has an empty directory below the root. */
  lemma PruneFixedExactly(n: Node)
    ensures Prune(n) == n <==> Tidy(n)
  {
    PruneTidy(n);
    if Tidy(n) {
      TidyIsFixed(n);
    }
  }

  /** Running the pass twice is running it once. */
  lemma PruneIdempotent(n: Node)
    ensures Prune(Prune(n)) == Prune(n)
  {
    PruneTidy(n);
    TidyIsFixed(Prune(n));
  }

  // ---------------------------------------------------------------------------
  // Files are untouched

  /** Where the first entry called `name` survives the pass, it is still the first one called `name`. */
  lemma {:induction false} FindPruned(cs: seq<Node>, name: string)
    requires Find(cs, name).Some? && !Empty(Prune(cs[Find(cs, name).value]))
    ensures Find(PruneEntries(cs), name).Some?
    ensures PruneEntries(cs)[Find(PruneEntries(cs), name).value] == Prune(cs[Find(cs, name).value])
    decreases |cs|
  {
    var p := Prune(cs[0]);
    var rest := PruneEntries(cs[1..]);
    if cs[0].name != name {
      FindPruned(cs[1..], name);
      if !Empty(p) {
        var j := Find(rest, name).value;
        assert ([p] + rest)[j + 1] == rest[j];
        assert Find([p] + rest, name) == Some(j + 1);
      }
    }
  }

  /** A regular file keeps its place and its contents. */
  lemma {:induction false} PruneKeepsFiles(n: Node, q: Path)
    requires IsFile(n, q)
    ensures Lookup(Prune(n), q) == Lookup(n, q)
    decreases |q|
  {
    if |q| > 0 {
      var cs := n.children;
      var c := cs[Find(cs, q[0]).value];
      PruneKeepsFiles(c, q[1..]);
      FindPruned(cs, q[0]);
    }
  }

  /** With distinct sibling names, a surviving entry called `name` is the cleaned first entry called `name`. */
  lemma {:induction false} FindPrunedBack(cs: seq<Node>, name: string)
    requires DistinctNames(cs) && Find(PruneEntries(cs), name).Some?
    ensures Find(cs, name).Some?
    ensures PruneEntries(cs)[Find(PruneEntries(cs), name).value] == Prune(cs[Find(cs, name).value])
    decreases |cs|
  {
    var p := Prune(cs[0]);
    var rest := PruneEntries(cs[1..]);
    if Empty(p) || p.name != name {
      assert Find(rest, name).Some?;
      FindPrunedBack(cs[1..], name);
      var i := Find(cs[1..], name).value;
      assert cs[i + 1].name == name;
      assert Find(cs, name) == Some(i + 1);
      if !Empty(p) {
        var j := Find(rest, name).value;
        assert ([p] + rest)[j + 1] == rest[j];
      }
    }
  }

  /** In a well-formed tree every regular file after the pass was there before, unchanged. */
  lemma {:induction false} PruneAddsNoFiles(n: Node, q: Path)
    requires WellFormed(n) && IsFile(Prune(n), q)
    ensures Lookup(n, q) == Lookup(Prune(n), q)
    decreases |q|
  {
    if |q| > 0 && n.Dir? {
      var cs := n.children;
      FindPrunedBack(cs, q[0]);
      var c := cs[Find(cs, q[0]).value];
      PruneAddsNoFiles(c, q[1..]);
    }
  }

  /** A second scan after the pass collects the same paths, in the same order, with the same counts. */
  lemma {:induction false} PruneEntryScan(c: Node, dir: Path, exclude: Path, counts: Counts)
    ensures ScanEntry(Prune(c), dir, exclude, counts) == ScanEntry(c, dir, exclude, counts)
    decreases c, 1
  {
    match c
    case File(_, _) =>
    case Dir(nm, cs) => PruneEntriesScan(cs, dir + [nm], exclude, counts);
  }

  lemma {:induction false} PruneEntriesScan(cs: seq<Node>, dir: Path, exclude: Path, counts: Counts)
    ensures ScanEntries(PruneEntries(cs), dir, exclude, counts) == ScanEntries(cs, dir, exclude, counts)
    decreases cs, 0
  {
    if cs != [] {
      var p := Prune(cs[0]);
      var head := ScanEntry(cs[0], dir, exclude, counts);
      var rest := PruneEntries(cs[1..]);
      PruneEntryScan(cs[0], dir, exclude, counts);
      PruneEntriesScan(cs[1..], dir, exclude, head.counts);
      if Empty(p) {
        assert head == Scan([], counts);
        assert head.files + ScanEntries(cs[1..], dir, exclude, head.counts).files
               == ScanEntries(cs[1..], dir, exclude, head.counts).files;
      } else {
        assert ([p] + rest)[0] == p && ([p] + rest)[1..] == rest;
      }
    }
  }

  // ---------------------------------------------------------------------------
  // Well-formedness

  lemma {:induction false} PruneWellFormed(n: Node)
    requires WellFormed(n)
    ensures WellFormed(Prune(n))
    decreases n, 1
  {
    match n
    case File(_, _) =>
    case Dir(_, cs) => PruneEntriesWellFormed(cs);
  }

  lemma {:induction false} PruneEntriesWellFormed(cs: seq<Node>)
    requires DistinctNames(cs) && forall i :: 0 <= i < |cs| ==> WellFormed(cs[i])
    ensures var r := PruneEntries(cs);
            && DistinctNames(r)
            && (forall j :: 0 <= j < |r| ==> WellFormed(r[j]))
            && (forall j :: 0 <= j < |r| ==> exists i :: 0 <= i < |cs| && cs[i].name == r[j].name)
    decreases cs, 0
  {
    if cs != [] {
      var p := Prune(cs[0]);
      var rest := PruneEntries(cs[1..]);
      assert PruneEntries(cs) == if Empty(p) then rest else [p] + rest;
      PruneWellFormed(cs[0]);
      PruneEntriesWellFormed(cs[1..]);
      forall j | 0 <= j < |rest|
        ensures rest[j].name != cs[0].name
        ensures exists i :: 0 <= i < |cs| && cs[i].name == rest[j].name
      {
        var i :| 0 <= i < |cs[1..]| && cs[1..][i].name == rest[j].name;
        assert cs[i + 1].name == rest[j].name;
      }
      if !Empty(p) {
        PrunedConsWellFormed(cs, p, rest);
      }
    }
  }

  /** A kept first entry in front of the pruned rest: names stay distinct and come from `cs`. */
  lemma PrunedConsWellFormed(cs: seq<Node>, p: Node, rest: seq<Node>)
    requires |cs| > 0 && p.name == cs[0].name && WellFormed(p)
    requires DistinctNames(rest) && forall j :: 0 <= j < |rest| ==> WellFormed(rest[j])
    requires forall j :: 0 <= j < |rest| ==>
               rest[j].name != cs[0].name && exists i :: 0 <= i < |cs| && cs[i].name == rest[j].name
    ensures var r := [p] + rest;
            && DistinctNames(r)
            && (forall j :: 0 <= j < |r| ==> WellFormed(r[j]))
            && (forall j :: 0 <= j < |r| ==> exists i :: 0 <= i < |cs| && cs[i].name == r[j].name)
  {
    var r := [p] + rest;
    forall j | 0 <= j < |r|
      ensures WellFormed(r[j])
      ensures exists i :: 0 <= i < |cs| && cs[i].name == r[j].name
      ensures j > 0 ==> r[j] == rest[j - 1] && r[j].name != r[0].name
    {
      if j > 0 {
        assert r[j] == rest[j - 1];
      } else {
        assert cs[0].name == r[0].name;
      }
    }
  }

  // ---------------------------------------------------------------------------
  // The pass on the base folder of a whole tree

  /** `deleteEmptyFolders(baseFolder)` on the directory at `base`. */
  function PruneAt(t: Node, base: Path): (r: Node)
    requires IsDir(t, base)
  {
    Put(t, base, Prune(Lookup(t, base).value))
  }

  /** The base folder is still a directory and holds the cleaned version of its old contents. */
  lemma PruneAtBase(t: Node, base: Path)
    requires IsDir(t, base)
    ensures Lookup(PruneAt(t, base), base) == Some(Prune(Lookup(t, base).value))
    ensures IsDir(PruneAt(t, base), base)
  {
    if |base| > 0 {
      AncestorIsNonEmptyDir(t, Parent(base), base);
      LookupName(t, base);
      LookupPut(t, base, Prune(Lookup(t, base).value));
    }
  }

  /** Every regular file of the tree, inside the base folder or not, is untouched. */
  lemma PruneAtKeepsFiles(t: Node, base: Path, d: Path)
    requires IsDir(t, base) && IsFile(t, d)
    ensures Lookup(PruneAt(t, base), d) == Lookup(t, d)
  {
    var sub := Lookup(t, base).value;
    FileIsNoAncestor(t, d, base);
    if base <= d {
      var q := d[|base|..];
      assert d == base + q;
      LookupAppend(t, base, q);
      LookupAppend(PruneAt(t, base), base, q);
      PruneAtBase(t, base);
      PruneKeepsFiles(sub, q);
    } else {
      LookupName(t, base);
      PutFrame(t, base, Prune(sub), d);
    }
  }

  /** After the pass no directory strictly below the base folder is empty. */
  lemma PruneAtLeavesNoEmptyDirs(t: Node, base: Path, q: Path)
    requires IsDir(t, base) && |q| > 0 && IsDir(PruneAt(t, base), base + q)
    ensures IsNonEmptyDir(PruneAt(t, base), base + q)
  {
    var sub := Lookup(t, base).value;
    PruneAtBase(t, base);
    LookupAppend(PruneAt(t, base), base, q);
    PruneTidy(sub);
    TidyHasNoEmptyDirs(Prune(sub), q);
  }

  /** Scanning the base folder after the pass finds what a scan before it found. */
  lemma PruneAtScan(t: Node, base: Path, exclude: Path, counts: Counts)
    requires IsDir(t, base)
    ensures IsDir(PruneAt(t, base), base)
    ensures ListFiles(Lookup(PruneAt(t, base), base).value, base, exclude, counts)
            == ListFiles(Lookup(t, base).value, base, exclude, counts)
  {
    var sub := Lookup(t, base).value;
    PruneAtBase(t, base);
    PruneEntriesScan(sub.children, base, exclude, counts);
  }

  lemma PruneAtWellFormed(t: Node, base: Path)
    requires IsDir(t, base) && WellFormed(t)
    ensures WellFormed(PruneAt(t, base))
  {
    var sub := Lookup(t, base).value;
    WellFormedBelow(t, base);
    PruneWellFormed(sub);
    if |base| > 0 {
      LookupName(t, base);
      PutWellFormed(t, base, Prune(sub));
    }
  }
}

=== FILE: relocation.dfy ===
/**
  Relocation (`createFoldersAndMoveFiles` and the per-category dispatch):
  each category gets a folder `base/category`, and each of its files is moved
  to `base/category/name`, replacing whatever file is there.  A failed move is
  logged and the next file is tried.  Categories are processed one after
  another, in the order the bucket map is enumerated.
 */
module Relocation {
  import opened Wrappers
  import opened Paths
  import opened FileTree

  /** The log line of one move: "Moved ..." or "Error moving file ...". */
  datatype MoveOutcome = Moved(source: Path, target: Path) | Failed(source: Path, target: Path)

  /** The tree after one move, and its log line. */
  datatype Step = Step(tree: Node, outcome: MoveOutcome)

  /** The tree after a batch of moves, and their log lines in order. */
  datatype Relocated = Relocated(tree: Node, log: seq<MoveOutcome>)

  /**
    `Files.move(src, dst, REPLACE_EXISTING)`.  It fails (and changes nothing)
    when `src` is not a regular file, when the environment makes it fail
    (`src in fails`: permissions, I/O errors), when the parent of `dst` is not
    a directory, or when `dst` is a non-empty directory.  Moving a file onto
    itself succeeds and has no effect.  Otherwise the file is unlinked from
    `src` and written at `dst`, replacing any file or empty directory there.
   */
  function Move(t: Node, src: Path, dst: Path, fails: set<Path>): (r: Step)
    requires |dst| > 0
    ensures r.outcome.source == src && r.outcome.target == dst
    ensures r.outcome.Failed? ==> r.tree == t
    ensures r.outcome.Moved? <==>
              && IsFile(t, src) && src !in fails
              && (src == dst || (IsDir(t, Parent(dst)) && !IsNonEmptyDir(t, dst)))
  {
    if !IsFile(t, src) || src in fails then Step(t, Failed(src, dst))
    else if src == dst then Step(t, Moved(src, dst))
    else if !IsDir(t, Parent(dst)) || IsNonEmptyDir(t, dst) then Step(t, Failed(src, dst))
    else Step(Put(Remove(t, src), dst, File(Name(dst), Lookup(t, src).value.data)), Moved(src, dst))
  }

  /** A successful move that is not onto itself had source and target on different branches. */
  lemma MovedApart(t: Node, src: Path, dst: Path, fails: set<Path>)
    requires |dst| > 0 && Move(t, src, dst, fails).outcome.Moved? && src != dst
    ensures Incomparable(src, dst)
    ensures IsDir(t, Parent(dst)) && !IsNonEmptyDir(t, dst)
    ensures !(src <= Parent(dst))
  {
    assert IsDir(t, Parent(dst)) && !IsNonEmptyDir(t, dst);
    FileIsNoAncestor(t, src, Parent(dst));
    if dst < src {
      AncestorIsNonEmptyDir(t, dst, src);
    }
  }

  /** After a successful move the target holds the source's file, under the target's name. */
  lemma MoveDelivers(t: Node, src: Path, dst: Path, fails: set<Path>)
    requires |dst| > 0 && Move(t, src, dst, fails).outcome.Moved?
    ensures Lookup(Move(t, src, dst, fails).tree, dst) == Some(File(Name(dst), Lookup(t, src).value.data))
  {
    if src == dst {
      LookupName(t, src);
    } else {
      MovedApart(t, src, dst, fails);
      var t1 := Remove(t, src);
      RemoveKeepsDir(t, src, Parent(dst));
      LookupPut(t1, dst, File(Name(dst), Lookup(t, src).value.data));
    }
  }

  /**
    `REPLACE_EXISTING`: a movable file sent onto an existing regular file
    succeeds, and the target then holds the moved file's contents.
   */
  lemma MoveReplaces(t: Node, src: Path, dst: Path, fails: set<Path>)
    requires |dst| > 0 && IsFile(t, src) && src !in fails && IsFile(t, dst)
    ensures Move(t, src, dst, fails).outcome.Moved?
    ensures Lookup(Move(t, src, dst, fails).tree, dst) == Some(File(Name(dst), Lookup(t, src).value.data))
  {
    if src != dst {
      AncestorIsNonEmptyDir(t, Parent(dst), dst);
    }
    MoveDelivers(t, src, dst, fails);
  }

  /** In a well-formed tree a successful move leaves nothing at the source (a move, not a copy). */
  lemma MoveVacatesSource(t: Node, src: Path, dst: Path, fails: set<Path>)
    requires |dst| > 0 && WellFormed(t)
    requires Move(t, src, dst, fails).outcome.Moved? && src != dst
    ensures !Exists(Move(t, src, dst, fails).tree, src)
  {
    MovedApart(t, src, dst, fails);
    LookupRemove(t, src);
    PutFrame(Remove(t, src), dst, File(Name(dst), Lookup(t, src).value.data), src);
  }

  /** A move touches no regular file other than its source and its target. */
  lemma MoveKeepsOtherFiles(t: Node, src: Path, dst: Path, fails: set<Path>, d: Path)
    requires |dst| > 0 && IsFile(t, d) && d != src && d != dst
    ensures Lookup(Move(t, src, dst, fails).tree, d) == Lookup(t, d)
  {
    var r := Move(t, src, dst, fails);
    if r.outcome.Moved? && src != dst {
      MovedApart(t, src, dst, fails);
      var t1 := Remove(t, src);
      RemoveKeepsFile(t, src, d);
      RemoveFrame(t, src, dst);
      PutKeepsFile(t1, dst, File(Name(dst), Lookup(t, src).value.data), d);
    }
  }

  /** A regular file at `d` is still a regular file after a move, unless the move takes it elsewhere. */
  lemma MoveKeepsFileAt(t: Node, src: Path, dst: Path, fails: set<Path>, d: Path)
    requires |dst| > 0 && IsFile(t, d) && (src == d ==> dst == d)
    ensures IsFile(Move(t, src, dst, fails).tree, d)
  {
    if d == dst {
      if Move(t, src, dst, fails).outcome.Moved? {
        MoveDelivers(t, src, dst, fails);
      }
    } else {
      MoveKeepsOtherFiles(t, src, dst, fails, d);
    }
  }

  /** A directory stays a directory unless the move writes at it or above it. */
  lemma MoveKeepsDir(t: Node, src: Path, dst: Path, fails: set<Path>, q: Path)
    requires |dst| > 0 && IsDir(t, q) && !(dst <= q)
    ensures IsDir(Move(t, src, dst, fails).tree, q)
  {
    if Move(t, src, dst, fails).outcome.Moved? && src != dst {
      FileIsNoAncestor(t, src, q);
      RemoveKeepsDir(t, src, q);
      PutKeepsDir(Remove(t, src), dst, File(Name(dst), Lookup(t, src).value.data), q);
    }
  }

  /**
    In a well-formed tree a move creates no regular file except at its
    target, and fills no directory except the target's ancestors.
   */
  lemma MoveCreatesOnlyTarget(t: Node, src: Path, dst: Path, fails: set<Path>, q: Path)
    requires |dst| > 0 && WellFormed(t)
    ensures IsFile(Move(t, src, dst, fails).tree, q) ==> IsFile(t, q) || q == dst
    ensures IsNonEmptyDir(Move(t, src, dst, fails).tree, q) ==> IsNonEmptyDir(t, q) || q < dst
  {
    if Move(t, src, dst, fails).outcome.Moved? && src != dst {
      RemoveFileOnly(t, src, q);
      PutLeafOnly(Remove(t, src), dst, File(Name(dst), Lookup(t, src).value.data), q);
    }
  }

  lemma MoveWellFormed(t: Node, src: Path, dst: Path, fails: set<Path>)
    requires |dst| > 0 && WellFormed(t)
    ensures WellFormed(Move(t, src, dst, fails).tree)
  {
    if Move(t, src, dst, fails).outcome.Moved? && src != dst {
      RemoveWellFormed(t, src);
      PutWellFormed(Remove(t, src), dst, File(Name(dst), Lookup(t, src).value.data));
    }
  }

  // ---------------------------------------------------------------------------
  // The category folder

  /**
    `if (!categoryFolder.exists()) categoryFolder.mkdirs()`: an empty directory
    is created at `folder` when nothing is there.  The parent (the base folder)
    is a directory whenever this runs, so only `folder` itself is created.
   */
  function EnsureDir(t: Node, folder: Path): (r: Node)
    requires |folder| > 0
    ensures Exists(t, folder) ==> r == t
  {
    if Exists(t, folder) then t else Put(t, folder, Dir(Name(folder), []))
  }

  /** Under an existing directory, the folder exists afterwards; a fresh one is an empty directory. */
  lemma EnsureDirCreates(t: Node, folder: Path)
    requires |folder| > 0 && IsDir(t, Parent(folder))
    ensures Exists(EnsureDir(t, folder), folder)
    ensures !Exists(t, folder) ==> Lookup(EnsureDir(t, folder), folder) == Some(Dir(Name(folder), []))
  {
    if !Exists(t, folder) {
      LookupPut(t, folder, Dir(Name(folder), []));
    }
  }

  /** Creating the folder twice is creating it once: an existing folder is not an error. */
  lemma EnsureDirIdempotent(t: Node, folder: Path)
    requires |folder| > 0
    ensures EnsureDir(EnsureDir(t, folder), folder) == EnsureDir(t, folder)
  {
    if !Exists(t, folder) {
      if IsDir(t, Parent(folder)) {
        EnsureDirCreates(t, folder);
      } else {
        PutWithoutParent(t, folder, Dir(Name(folder), []));
      }
    }
  }

  /** Creating the folder touches no regular file. */
  lemma EnsureDirKeepsFiles(t: Node, folder: Path, d: Path)
    requires |folder| > 0 && IsFile(t, d)
    ensures Lookup(EnsureDir(t, folder), d) == Lookup(t, d)
  {
    if !Exists(t, folder) {
      PutKeepsFile(t, folder, Dir(Name(folder), []), d);
    }
  }

  /** Creating the folder creates no regular file and fills no directory but its ancestors. */
  lemma EnsureDirCreatesOnlyFolder(t: Node, folder: Path, q: Path)
    requires |folder| > 0
    ensures IsFile(EnsureDir(t, folder), q) ==> IsFile(t, q)
    ensures IsNonEmptyDir(EnsureDir(t, folder), q) ==> IsNonEmptyDir(t, q) || q < folder
  {
    if !Exists(t, folder) {
      PutLeafOnly(t, folder, Dir(Name(folder), []), q);
    }
  }

  lemma EnsureDirKeepsDir(t: Node, folder: Path, q: Path)
    requires |folder| > 0 && IsDir(t, q) && !(folder <= q)
    ensures IsDir(EnsureDir(t, folder), q)
  {
    if !Exists(t, folder) {
      PutKeepsDir(t, folder, Dir(Name(folder), []), q);
    }
  }

  lemma EnsureDirWellFormed(t: Node, folder: Path)
    requires |folder| > 0 && WellFormed(t)
    ensures WellFormed(EnsureDir(t, folder))
  {
    if !Exists(t, folder) {
      PutWellFormed(t, folder, Dir(Name(folder), []));
    }
  }

  // ---------------------------------------------------------------------------
  // One category

  /** `new File(categoryFolder, sourceFile.getName())`. */
  function Target(base: Path, cat: string, src: Path): (r: Path)
    ensures |r| == |base| + 2 && base < r && r[|base|] == cat && Name(r) == Name(src)
  {
    base + [cat, Name(src)]
  }

  /** The moves of one category, in list order; every file gets a log line, failed or not. */
  function MoveAll(t: Node, base: Path, cat: string, files: seq<Path>, fails: set<Path>): (r: Relocated)
    ensures |r.log| == |files|
    ensures forall i :: 0 <= i < |files| ==>
              r.log[i].source == files[i] && r.log[i].target == Target(base, cat, files[i])
    decreases |files|
  {
    if |files| == 0 then Relocated(t, [])
    else
      var prev := MoveAll(t, base, cat, files[..|files| - 1], fails);
      var src := files[|files| - 1];
      var step := Move(prev.tree, src, Target(base, cat, src), fails);
      Relocated(step.tree, prev.log + [step.outcome])
  }

  /** `createFoldersAndMoveFiles(entry, baseFolder)` for the entry `cat -> files`. */
  function RelocateCategory(t: Node, base: Path, cat: string, files: seq<Path>, fails: set<Path>): (r: Relocated)
    ensures |r.log| == |files|
    ensures forall i :: 0 <= i < |files| ==>
              r.log[i].source == files[i] && r.log[i].target == Target(base, cat, files[i])
  {
    MoveAll(EnsureDir(t, base + [cat]), base, cat, files, fails)
  }

  /** The tree after the first `i` moves of a category. */
  function StateAfter(t: Node, base: Path, cat: string, files: seq<Path>, fails: set<Path>, i: nat): Node
    requires i <= |files|
  {
    MoveAll(t, base, cat, files[..i], fails).tree
  }

  /** One more path: the batch so far, then one more move. */
  lemma MoveAllSnoc(t: Node, base: Path, cat: string, files: seq<Path>, fails: set<Path>)
    requires |files| > 0
    ensures var prev := MoveAll(t, base, cat, files[..|files| - 1], fails);
            var step := Move(prev.tree, files[|files| - 1], Target(base, cat, files[|files| - 1]), fails);
            MoveAll(t, base, cat, files, fails) == Relocated(step.tree, prev.log + [step.outcome])
  {
  }

  /** The log of a prefix of the batch is the prefix of the batch's log. */
  lemma {:induction false} MoveAllPrefix(t: Node, base: Path, cat: string, files: seq<Path>, fails: set<Path>, j: nat)
    requires j <= |files|
    ensures MoveAll(t, base, cat, files[..j], fails).log == MoveAll(t, base, cat, files, fails).log[..j]
    decreases |files|
  {
    var n := |files|;
    if j == n {
      assert files[..j] == files;
    } else {
      var init := files[..n - 1];
      MoveAllSnoc(t, base, cat, files, fails);
      assert init[..j] == files[..j];
      MoveAllPrefix(t, base, cat, init, fails, j);
      assert MoveAll(t, base, cat, files, fails).log[..j] == MoveAll(t, base, cat, init, fails).log[..j];
    }
  }

  /** Move `i` starts from the state after the first `i` moves and its line is log line `i`. */
  lemma MoveAllSteps(t: Node, base: Path, cat: string, files: seq<Path>, fails: set<Path>, i: nat)
    requires i < |files|
    ensures var step := Move(StateAfter(t, base, cat, files, fails, i), files[i], Target(base, cat, files[i]), fails);
            && MoveAll(t, base, cat, files, fails).log[i] == step.outcome
            && StateAfter(t, base, cat, files, fails, i + 1) == step.tree
  {
    var pre := files[..i + 1];
    assert |pre| == i + 1 && pre[..i] == files[..i] && pre[i] == files[i];
    var prev := MoveAll(t, base, cat, files[..i], fails);
    var step := Move(prev.tree, files[i], Target(base, cat, files[i]), fails);
    MoveAllSnoc(t, base, cat, pre, fails);
    assert MoveAll(t, base, cat, pre, fails) == Relocated(step.tree, prev.log + [step.outcome]);
    MoveAllPrefix(t, base, cat, files, fails, i + 1);
    assert MoveAll(t, base, cat, files, fails).log[i] == MoveAll(t, base, cat, pre, fails).log[i];
  }

  /**
    A regular file at `d` after the first `i` moves is still there, unchanged,
    at the end, when no later successful move has `d` as source or target.
   */
  lemma {:induction false} MoveAllKeeps(t: Node, base: Path, cat: string, files: seq<Path>, fails: set<Path>, i: nat, d: Path)
    requires i <= |files| && IsFile(StateAfter(t, base, cat, files, fails, i), d)
    requires forall j :: i <= j < |files| && MoveAll(t, base, cat, files, fails).log[j].Moved? ==>
               files[j] != d && Target(base, cat, files[j]) != d
    ensures Lookup(MoveAll(t, base, cat, files, fails).tree, d) == Lookup(StateAfter(t, base, cat, files, fails, i), d)
    decreases |files|
  {
    var n := |files|;
    if i == n {
      assert files[..n] == files;
    } else {
      var init := files[..n - 1];
      var prev := MoveAll(t, base, cat, init, fails);
      var all := MoveAll(t, base, cat, files, fails);
      MoveAllSnoc(t, base, cat, files, fails);
      assert init[..i] == files[..i];
      forall j | i <= j < n - 1 && prev.log[j].Moved?
        ensures init[j] != d && Target(base, cat, init[j]) != d
      {
        assert all.log[j] == prev.log[j];
      }
      MoveAllKeeps(t, base, cat, init, fails, i, d);
      LastMoveKeeps(t, base, cat, files, fails, d);
    }
  }

  /** The last move of a category leaves `d` alone when it does not move `d` or write to it. */
  lemma LastMoveKeeps(t: Node, base: Path, cat: string, files: seq<Path>, fails: set<Path>, d: Path)
    requires |files| > 0 && IsFile(MoveAll(t, base, cat, files[..|files| - 1], fails).tree, d)
    requires MoveAll(t, base, cat, files, fails).log[|files| - 1].Moved? ==>
               files[|files| - 1] != d && Target(base, cat, files[|files| - 1]) != d
    ensures Lookup(MoveAll(t, base, cat, files, fails).tree, d) == Lookup(MoveAll(t, base, cat, files[..|files| - 1], fails).tree, d)
  {
    var prev := MoveAll(t, base, cat, files[..|files| - 1], fails);
    var src := files[|files| - 1];
    var step := Move(prev.tree, src, Target(base, cat, src), fails);
    MoveAllSnoc(t, base, cat, files, fails);
    if step.outcome.Moved? {
      MoveKeepsOtherFiles(prev.tree, src, Target(base, cat, src), fails, d);
    }
  }

  /**
    Last write wins: when move `i` succeeds and no later successful move has
    the same target, the target ends up holding the file move `i` took.
   */
  lemma LastWriteWins(t: Node, base: Path, cat: string, files: seq<Path>, fails: set<Path>, i: nat)
    requires i < |files|
    requires MoveAll(t, base, cat, files, fails).log[i].Moved?
    requires forall j :: i < j < |files| && MoveAll(t, base, cat, files, fails).log[j].Moved? ==>
               Target(base, cat, files[j]) != Target(base, cat, files[i])
    ensures IsFile(StateAfter(t, base, cat, files, fails, i), files[i])
    ensures Lookup(MoveAll(t, base, cat, files, fails).tree, Target(base, cat, files[i]))
            == Some(File(Name(files[i]), Lookup(StateAfter(t, base, cat, files, fails, i), files[i]).value.data))
    ensures forall j :: i < j < |files| && Name(files[j]) == Name(files[i]) && files[j] !in fails ==>
              !IsFile(StateAfter(t, base, cat, files, fails, j), files[j])
  {
    var s := StateAfter(t, base, cat, files, fails, i);
    var d := Target(base, cat, files[i]);
    MoveAllSteps(t, base, cat, files, fails, i);
    MoveDelivers(s, files[i], d, fails);
    MoveAllKeeps(t, base, cat, files, fails, i + 1, d);
    forall j | i < j < |files| && Name(files[j]) == Name(files[i]) && files[j] !in fails
      ensures !IsFile(StateAfter(t, base, cat, files, fails, j), files[j])
    {
      if IsFile(StateAfter(t, base, cat, files, fails, j), files[j]) {
        assert Target(base, cat, files[j]) == d;
        LaterMoveReplaces(t, base, cat, files, fails, i, j);
        assert false;
      }
    }
  }

  /**
    A regular file stays a regular file (its contents may change) through
    moves that never take it anywhere else.
   */
  lemma {:induction false} StaysFile(t: Node, base: Path, cat: string, files: seq<Path>, fails: set<Path>, i: nat, j: nat, d: Path)
    requires i <= j <= |files| && IsFile(StateAfter(t, base, cat, files, fails, i), d)
    requires forall k :: i <= k < j && files[k] == d ==> Target(base, cat, files[k]) == d
    ensures IsFile(StateAfter(t, base, cat, files, fails, j), d)
    decreases j - i
  {
    if i < j {
      MoveAllSteps(t, base, cat, files, fails, i);
      MoveKeepsFileAt(StateAfter(t, base, cat, files, fails, i), files[i], Target(base, cat, files[i]), fails, d);
      StaysFile(t, base, cat, files, fails, i + 1, j, d);
    }
  }

  /**
    A later file with the same name replaces an earlier delivery: once move
    `i` has succeeded, move `j > i` of a same-named file that is still a
    movable regular file succeeds too, and its contents are what the target
    holds afterwards.
   */
  lemma LaterMoveReplaces(t: Node, base: Path, cat: string, files: seq<Path>, fails: set<Path>, i: nat, j: nat)
    requires i < j < |files| && Name(files[j]) == Name(files[i])
    requires MoveAll(t, base, cat, files, fails).log[i].Moved?
    requires IsFile(StateAfter(t, base, cat, files, fails, j), files[j]) && files[j] !in fails
    ensures MoveAll(t, base, cat, files, fails).log[j].Moved?
    ensures Lookup(StateAfter(t, base, cat, files, fails, j + 1), Target(base, cat, files[i]))
            == Some(File(Name(files[j]), Lookup(StateAfter(t, base, cat, files, fails, j), files[j]).value.data))
  {
    var d := Target(base, cat, files[i]);
    assert Target(base, cat, files[j]) == d;
    MoveAllSteps(t, base, cat, files, fails, i);
    MoveDelivers(StateAfter(t, base, cat, files, fails, i), files[i], d, fails);
    forall k | i + 1 <= k < j && files[k] == d
      ensures Target(base, cat, files[k]) == d
    {
      assert Name(files[k]) == Name(d);
    }
    StaysFile(t, base, cat, files, fails, i + 1, j, d);
    MoveAllSteps(t, base, cat, files, fails, j);
    MoveReplaces(StateAfter(t, base, cat, files, fails, j), files[j], d, fails);
  }

  /**
    A failed move leaves its source where it was, and it stays there to the
    end when no later successful move has it as source or target.
   */
  lemma FailedSourceStays(t: Node, base: Path, cat: string, files: seq<Path>, fails: set<Path>, i: nat)
    requires i < |files|
    requires MoveAll(t, base, cat, files, fails).log[i].Failed?
    requires IsFile(StateAfter(t, base, cat, files, fails, i), files[i])
    requires forall j :: i < j < |files| && MoveAll(t, base, cat, files, fails).log[j].Moved? ==>
               files[j] != files[i] && Target(base, cat, files[j]) != files[i]
    ensures Lookup(MoveAll(t, base, cat, files, fails).tree, files[i])
            == Lookup(StateAfter(t, base, cat, files, fails, i), files[i])
  {
    MoveAllSteps(t, base, cat, files, fails, i);
    assert StateAfter(t, base, cat, files, fails, i + 1) == StateAfter(t, base, cat, files, fails, i);
    MoveAllKeeps(t, base, cat, files, fails, i + 1, files[i]);
  }

  /** Regular files that are neither listed nor targets of the category are left alone. */
  lemma RelocateCategoryFrame(t: Node, base: Path, cat: string, files: seq<Path>, fails: set<Path>, d: Path)
    requires IsFile(t, d)
    requires forall j :: 0 <= j < |files| ==> files[j] != d && Target(base, cat, files[j]) != d
    ensures Lookup(RelocateCategory(t, base, cat, files, fails).tree, d) == Lookup(t, d)
  {
    var t0 := EnsureDir(t, base + [cat]);
    EnsureDirKeepsFiles(t, base + [cat], d);
    assert files[..0] == [];
    MoveAllKeeps(t0, base, cat, files, fails, 0, d);
  }

  /** Every successful move in the log left a regular file at its target, and it is still there. */
  ghost predicate Delivered(r: Relocated)
  {
    forall i :: 0 <= i < |r.log| && r.log[i].Moved? ==> IsFile(r.tree, r.log[i].target)
  }

  /** Every successful move of a category leaves a regular file at its target. */
  lemma {:induction false} MoveAllDelivers(t: Node, base: Path, cat: string, files: seq<Path>, fails: set<Path>)
    ensures Delivered(MoveAll(t, base, cat, files, fails))
    decreases |files|
  {
    var n := |files|;
    if n > 0 {
      var init := files[..n - 1];
      var prev := MoveAll(t, base, cat, init, fails);
      var src := files[n - 1];
      var dst := Target(base, cat, src);
      var r := MoveAll(t, base, cat, files, fails);
      MoveAllDelivers(t, base, cat, init, fails);
      forall i | 0 <= i < n && r.log[i].Moved?
        ensures IsFile(r.tree, r.log[i].target)
      {
        if i == n - 1 {
          MoveDelivers(prev.tree, src, dst, fails);
        } else {
          assert r.log[i] == prev.log[i];
          assert prev.log[i].Moved?;
          assert prev.log[i].target == Target(base, cat, init[i]);
          MoveKeepsFileAt(prev.tree, src, dst, fails, r.log[i].target);
        }
      }
    }
  }

  lemma {:induction false} MoveAllWellFormed(t: Node, base: Path, cat: string, files: seq<Path>, fails: set<Path>)
    requires WellFormed(t)
    ensures WellFormed(MoveAll(t, base, cat, files, fails).tree)
    decreases |files|
  {
    if |files| > 0 {
      var init := files[..|files| - 1];
      MoveAllWellFormed(t, base, cat, init, fails);
      var src := files[|files| - 1];
      MoveWellFormed(MoveAll(t, base, cat, init, fails).tree, src, Target(base, cat, src), fails);
    }
  }

  /** The folder of the category and everything above it stay directories. */
  lemma {:induction false} MoveAllKeepsDir(t: Node, base: Path, cat: string, files: seq<Path>, fails: set<Path>, q: Path)
    requires IsDir(t, q) && |q| <= |base| + 1
    ensures IsDir(MoveAll(t, base, cat, files, fails).tree, q)
    decreases |files|
  {
    if |files| > 0 {
      var init := files[..|files| - 1];
      MoveAllKeepsDir(t, base, cat, init, fails, q);
      var src := files[|files| - 1];
      MoveKeepsDir(MoveAll(t, base, cat, init, fails).tree, src, Target(base, cat, src), fails, q);
    }
  }

  /**
    In a well-formed tree the moves of a category create regular files only
    at depth `|base| + 2`, where the targets are, and fill no directory at
    that depth or below.
   */
  lemma {:induction false} MoveAllCreatesOnlyTargets(t: Node, base: Path, cat: string, files: seq<Path>, fails: set<Path>, q: Path)
    requires WellFormed(t)
    ensures IsFile(MoveAll(t, base, cat, files, fails).tree, q) ==> IsFile(t, q) || |q| == |base| + 2
    ensures IsNonEmptyDir(MoveAll(t, base, cat, files, fails).tree, q) ==> IsNonEmptyDir(t, q) || |q| < |base| + 2
    decreases |files|
  {
    if |files| > 0 {
      var init := files[..|files| - 1];
      var src := files[|files| - 1];
      MoveAllCreatesOnlyTargets(t, base, cat, init, fails, q);
      MoveAllWellFormed(t, base, cat, init, fails);
      MoveCreatesOnlyTarget(MoveAll(t, base, cat, init, fails).tree, src, Target(base, cat, src), fails, q);
    }
  }

  /**
    `Files.move` succeeds for a listed file when the category folder is a
    directory, the file is still where it was listed (no earlier entry of
    the list is the same path), the environment lets it move, and no
    non-empty directory sits at its target.
   */
  lemma MoveAllMoves(t: Node, base: Path, cat: string, files: seq<Path>, fails: set<Path>, i: nat)
    requires WellFormed(t) && IsDir(t, base + [cat]) && i < |files|
    requires IsFile(t, files[i]) && files[i] !in fails
    requires forall j :: 0 <= j < i ==> files[j] != files[i]
    requires !IsNonEmptyDir(t, Target(base, cat, files[i]))
    ensures MoveAll(t, base, cat, files, fails).log[i].Moved?
  {
    var dst := Target(base, cat, files[i]);
    assert files[..0] == [];
    StaysFile(t, base, cat, files, fails, 0, i, files[i]);
    MoveAllKeepsDir(t, base, cat, files[..i], fails, base + [cat]);
    MoveAllCreatesOnlyTargets(t, base, cat, files[..i], fails, dst);
    MoveAllSteps(t, base, cat, files, fails, i);
    assert Parent(dst) == base + [cat];
  }

  /**
    A regular file that already has the category's name in the base folder
    blocks the category: the folder is not created, and every move of the
    category fails, leaving the tree as it was.
   */
  lemma {:induction false} BlockedCategoryFails(t: Node, base: Path, cat: string, files: seq<Path>, fails: set<Path>)
    requires IsFile(t, base + [cat])
    ensures EnsureDir(t, base + [cat]) == t
    ensures var r := RelocateCategory(t, base, cat, files, fails);
            r.tree == t && forall i :: 0 <= i < |r.log| ==> r.log[i].Failed?
    decreases |files|
  {
    if |files| > 0 {
      var init := files[..|files| - 1];
      var src := files[|files| - 1];
      var dst := Target(base, cat, src);
      BlockedCategoryFails(t, base, cat, init, fails);
      assert Parent(dst) == base + [cat];
      NothingBelowFile(t, base + [cat], [Name(src)]);
      assert dst == base + [cat] + [Name(src)];
    }
  }
}

=== FILE: scanner.dfy ===
/**
  The tree scanner (`listFiles`): a depth-first walk in listing order that
  collects the path of every regular file except the excluded one, and bumps
  the counter of each collected file's raw (not case-folded) extension.
 */
module Scanner {
  import opened Wrappers
  import opened Paths
  import opened FileTree
  import opened Extension
  import opened Tally

  /** The collected paths and the counters after the walk. */
  datatype Scan = Scan(files: seq<Path>, counts: Counts)

  /**
    One listed entry `c` of the directory at `dir`: a regular file other than
    the excluded one is collected and counted, a directory is walked, anything
    else (the excluded file) is passed over.
   */
  function ScanEntry(c: Node, dir: Path, exclude: Path, counts: Counts): (r: Scan)
    ensures forall p :: p in r.files ==> dir < p && p != exclude
    decreases c
  {
    var path := dir + [c.name];
    match c
    case File(name, _) =>
      if path != exclude then Scan([path], Inc(counts, FileExtension(name))) else Scan([], counts)
    case Dir(_, cs) =>
      ScanEntries(cs, path, exclude, counts)
  }

  /** The entries `cs` of the directory at `dir`, in listing order, threading the counters. */
  function ScanEntries(cs: seq<Node>, dir: Path, exclude: Path, counts: Counts): (r: Scan)
    ensures forall p :: p in r.files ==> dir < p && p != exclude
    decreases cs
  {
    if cs == [] then Scan([], counts)
    else
      var head := ScanEntry(cs[0], dir, exclude, counts);
      var rest := ScanEntries(cs[1..], dir, exclude, head.counts);
      Scan(head.files + rest.files, rest.counts)
  }

  /** `listFiles(folder, excludeFile)` on the directory `folder` found at `at`. */
  function ListFiles(folder: Node, at: Path, exclude: Path, counts: Counts): (r: Scan)
    requires folder.Dir?
    ensures forall p :: p in r.files ==> at < p && p != exclude
  {
    ScanEntries(folder.children, at, exclude, counts)
  }

  // ---------------------------------------------------------------------------
  // Counters

  /** How many of `files` have raw extension `e`. */
  function Occurrences(files: seq<Path>, e: string): nat
  {
    if |files| == 0 then 0
    else (if FileExtension(Name(files[0])) == e then 1 else 0) + Occurrences(files[1..], e)
  }

  lemma {:induction false} OccurrencesAppend(a: seq<Path>, b: seq<Path>, e: string)
    ensures Occurrences(a + b, e) == Occurrences(a, e) + Occurrences(b, e)
    decreases |a|
  {
    if |a| > 0 {
      assert (a + b)[0] == a[0];
      assert (a + b)[1..] == a[1..] + b;
      OccurrencesAppend(a[1..], b, e);
    } else {
      assert a + b == b;
    }
  }

  /** Counters kept in step with the collected list: each label grew by its occurrences. */
  ghost predicate Counted(before: Counts, after: Counts, files: seq<Path>)
  {
    && (forall e :: Get(after, e) == Get(before, e) + Occurrences(files, e))
    && (forall e :: e in after <==> e in before || Occurrences(files, e) > 0)
  }

  /**
    The counter of each label grows by the number of collected files with that
    raw extension, and the counters' total grows by the number of collected files.
   */
  lemma {:induction false} ScanEntryCounts(c: Node, dir: Path, exclude: Path, counts: Counts)
    ensures var r := ScanEntry(c, dir, exclude, counts);
            Counted(counts, r.counts, r.files) && Total(r.counts) == Total(counts) + |r.files|
    decreases c
  {
    match c
    case File(name, _) =>
      var path := dir + [name];
      if path != exclude {
        var k := FileExtension(name);
        TotalInc(counts, k);
        assert Name(path) == name;
        assert forall e :: Occurrences([path], e) == if k == e then 1 else 0;
      }
    case Dir(_, cs) =>
      ScanEntriesCounts(cs, dir + [c.name], exclude, counts);
  }

  lemma {:induction false} ScanEntriesCounts(cs: seq<Node>, dir: Path, exclude: Path, counts: Counts)
    ensures var r := ScanEntries(cs, dir, exclude, counts);
            Counted(counts, r.counts, r.files) && Total(r.counts) == Total(counts) + |r.files|
    decreases cs
  {
    if cs != [] {
      var head := ScanEntry(cs[0], dir, exclude, counts);
      var rest := ScanEntries(cs[1..], dir, exclude, head.counts);
      ScanEntryCounts(cs[0], dir, exclude, counts);
      ScanEntriesCounts(cs[1..], dir, exclude, head.counts);
      forall e
        ensures Occurrences(head.files + rest.files, e) == Occurrences(head.files, e) + Occurrences(rest.files, e)
      {
        OccurrencesAppend(head.files, rest.files, e);
      }
    }
  }

  /**
    Starting from cleared counters (`fileTypeCounts.clear()`), every counter is
    the number of collected files with that raw extension, a label is present
    only if some collected file has it, and the counters sum to the number of
    collected files.
   */
  lemma ListFilesCounts(folder: Node, at: Path, exclude: Path)
    requires folder.Dir?
    ensures var r := ListFiles(folder, at, exclude, map[]);
            && (forall e :: Get(r.counts, e) == Occurrences(r.files, e))
            && (forall e :: e in r.counts ==> Occurrences(r.files, e) > 0)
            && Total(r.counts) == |r.files|
  {
    var r := ListFiles(folder, at, exclude, map[]);
    ScanEntriesCounts(folder.children, at, exclude, map[]);
    var empty: Counts := map[];
    assert Total(empty) == 0;
  }

  // ---------------------------------------------------------------------------
  // What the walk collects

  /** Every collected path holds a regular file of the tree and is not the excluded one. */
  lemma {:induction false} ScanEntrySound(nm: string, cs: seq<Node>, dir: Path, exclude: Path, counts: Counts)
    requires WellFormed(Dir(nm, cs)) && |cs| > 0
    ensures forall p :: p in ScanEntry(cs[0], dir, exclude, counts).files ==>
              IsFile(Dir(nm, cs), p[|dir|..])
    decreases cs, 0
  {
    var c := cs[0];
    var path := dir + [c.name];
    assert Find(cs, c.name) == Some(0);
    forall p | p in ScanEntry(c, dir, exclude, counts).files
      ensures IsFile(Dir(nm, cs), p[|dir|..])
    {
      if c.File? {
        assert p[|dir|..] == [c.name];
      } else {
        ScanSound(c.name, c.children, path, exclude, counts);
        assert p[|dir|..][1..] == p[|path|..];
      }
    }
  }

  lemma {:induction false} ScanSound(nm: string, cs: seq<Node>, dir: Path, exclude: Path, counts: Counts)
    requires WellFormed(Dir(nm, cs))
    ensures forall p :: p in ScanEntries(cs, dir, exclude, counts).files ==>
              IsFile(Dir(nm, cs), p[|dir|..])
    decreases cs, 1
  {
    if cs != [] {
      var head := ScanEntry(cs[0], dir, exclude, counts);
      var rest := ScanEntries(cs[1..], dir, exclude, head.counts);
      ScanEntrySound(nm, cs, dir, exclude, counts);
      assert WellFormed(Dir(nm, cs[1..])) by {
        assert forall i :: 0 <= i < |cs| - 1 ==> cs[1..][i] == cs[i + 1];
      }
      ScanSound(nm, cs[1..], dir, exclude, head.counts);
      forall p | p in rest.files
        ensures IsFile(Dir(nm, cs), p[|dir|..])
      {
        var rel := p[|dir|..];
        var j := Find(cs[1..], rel[0]).value;
        assert cs[j + 1].name == rel[0];
        assert Find(cs, rel[0]) == Some(j + 1);
      }
    }
  }

  /** Every regular file of the tree other than the excluded one is collected. */
  lemma {:induction false} ScanComplete(nm: string, cs: seq<Node>, dir: Path, exclude: Path, counts: Counts, rel: Path)
    requires IsFile(Dir(nm, cs), rel) && dir + rel != exclude
    ensures dir + rel in ScanEntries(cs, dir, exclude, counts).files
    decreases cs
  {
    var c := cs[0];
    var path := dir + [c.name];
    var head := ScanEntry(c, dir, exclude, counts);
    var rest := ScanEntries(cs[1..], dir, exclude, head.counts);
    assert ScanEntries(cs, dir, exclude, counts).files == head.files + rest.files;
    var i := Find(cs, rel[0]).value;
    if i == 0 {
      assert Lookup(Dir(nm, cs), rel) == Lookup(c, rel[1..]);
      if |rel| == 1 {
        assert dir + rel == path;
        assert c.File?;
        assert head.files == [path];
      } else {
        assert c.Dir?;
        assert dir + rel == path + rel[1..];
        ScanComplete(c.name, c.children, path, exclude, counts, rel[1..]);
      }
    } else {
      assert Find(cs[1..], rel[0]) == Some(i - 1);
      ScanComplete(nm, cs[1..], dir, exclude, head.counts, rel);
    }
  }
}

=== FILE: tally.dfy ===
/** Per-label counters (`Map<String, Integer>` with `getOrDefault(k, 0) + 1`) and their total. */
module Tally {

  type Counts = map<string, nat>

  /** `getOrDefault(k, 0)`. */
  function Get<K>(m: map<K, nat>, k: K): nat
  {
    if k in m then m[k] else 0
  }

  /** `put(k, getOrDefault(k, 0) + 1)`: one more under `k`, every other counter unchanged. */
  function Inc(m: Counts, k: string): (r: Counts)
    ensures r.Keys == m.Keys + {k}
    ensures Get(r, k) == Get(m, k) + 1
    ensures forall j :: j != k ==> Get(r, j) == Get(m, j)
  {
    m[k := Get(m, k) + 1]
  }

  /** The sum of the counters named in `ks`. */
  ghost function SumOver<K>(m: map<K, nat>, ks: set<K>): nat
    decreases ks
  {
    if ks == {} then 0
    else
      var k :| k in ks;
      Get(m, k) + SumOver(m, ks - {k})
  }

  /** The sum of all values of a map. */
  ghost function Total<K>(m: map<K, nat>): nat
  {
    SumOver(m, m.Keys)
  }

  /** The sum may be computed by taking out any key first. */
  lemma {:induction false} SumOverRemove<K>(m: map<K, nat>, ks: set<K>, k: K)
    requires k in ks
    ensures SumOver(m, ks) == Get(m, k) + SumOver(m, ks - {k})
    decreases ks
  {
    var j :| j in ks && SumOver(m, ks) == Get(m, j) + SumOver(m, ks - {j});
    if j != k {
      SumOverRemove(m, ks - {j}, k);
      SumOverRemove(m, ks - {k}, j);
      assert ks - {j} - {k} == ks - {k} - {j};
    }
  }

  /** Only the counters named in `ks` matter. */
  lemma {:induction false} SumOverAgree<K>(m: map<K, nat>, m': map<K, nat>, ks: set<K>)
    requires forall k :: k in ks ==> Get(m, k) == Get(m', k)
    ensures SumOver(m, ks) == SumOver(m', ks)
    decreases ks
  {
    if ks != {} {
      var j :| j in ks && SumOver(m, ks) == Get(m, j) + SumOver(m, ks - {j});
      SumOverRemove(m', ks, j);
      SumOverAgree(m, m', ks - {j});
    }
  }

  /** Setting one key moves the total by the difference. */
  lemma TotalUpdate<K>(m: map<K, nat>, k: K, v: nat)
    ensures Total(m[k := v]) + Get(m, k) == Total(m) + v
  {
    var m' := m[k := v];
    SumOverRemove(m', m'.Keys, k);
    assert m'.Keys - {k} == m.Keys - {k};
    SumOverAgree(m', m, m.Keys - {k});
    if k in m {
      SumOverRemove(m, m.Keys, k);
    } else {
      assert m.Keys - {k} == m.Keys;
    }
  }

  /** Each increment adds one to the total. */
  lemma TotalInc(m: Counts, k: string)
    ensures Total(Inc(m, k)) == Total(m) + 1
  {
    TotalUpdate(m, k, Get(m, k) + 1);
  }
}

=== FILE: tree.dfy ===
/**
  An immutable, in-memory file tree standing in for `java.io.File`.  A
  directory's children are kept in the order `File.listFiles()` reports them.
  Paths are resolved one segment at a time against the first child with that
  name; `WellFormed` trees have distinct sibling names, as a real directory does.
 */
module FileTree {
  import opened Wrappers
  import opened Paths

  /** `data` stands for a regular file's contents. */
  datatype Node = File(name: string, data: nat) | Dir(name: string, children: seq<Node>)

  /** The index of the first child called `name`. */
  function Find(cs: seq<Node>, name: string): (r: Option<nat>)
    ensures r.Some? ==> r.value < |cs| && cs[r.value].name == name
    ensures r.Some? ==> forall j :: 0 <= j < r.value ==> cs[j].name != name
    ensures r.None? ==> forall j :: 0 <= j < |cs| ==> cs[j].name != name
  {
    if |cs| == 0 then None
    else if cs[0].name == name then Some(0)
    else match Find(cs[1..], name)
      case None => None
      case Some(i) => Some(i + 1)
  }

  /** The entry at `p` below `n`, if any. */
  function Lookup(n: Node, p: Path): Option<Node>
    decreases |p|
  {
    if |p| == 0 then Some(n)
    else match n
      case File(_, _) => None
      case Dir(_, cs) =>
        match Find(cs, p[0])
        case None => None
        case Some(i) => Lookup(cs[i], p[1..])
  }

  predicate Exists(n: Node, p: Path)
  {
    Lookup(n, p).Some?
  }

  predicate IsFile(n: Node, p: Path)
  {
    Lookup(n, p).Some? && Lookup(n, p).value.File?
  }

  predicate IsDir(n: Node, p: Path)
  {
    Lookup(n, p).Some? && Lookup(n, p).value.Dir?
  }

  predicate IsNonEmptyDir(n: Node, p: Path)
  {
    IsDir(n, p) && |Lookup(n, p).value.children| > 0
  }

  /**
    Places `x` at `p`: it replaces the entry called `Name(p)` in the parent
    directory, or is appended to the parent's listing.  Nothing changes when
    the parent is not a directory.
   */
  function Put(n: Node, p: Path, x: Node): Node
    decreases |p|
  {
    if |p| == 0 then x
    else match n
      case File(_, _) => n
      case Dir(nm, cs) =>
        match Find(cs, p[0])
        case None => if |p| == 1 then Dir(nm, cs + [x]) else n
        case Some(i) => Dir(nm, cs[i := Put(cs[i], p[1..], x)])
  }

  /** Unlinks the entry at `p` from its parent; the root is never removed. */
  function Remove(n: Node, p: Path): Node
    decreases |p|
  {
    if |p| == 0 then n
    else match n
      case File(_, _) => n
      case Dir(nm, cs) =>
        match Find(cs, p[0])
        case None => n
        case Some(i) =>
          if |p| == 1 then Dir(nm, cs[..i] + cs[i + 1..])
          else Dir(nm, cs[i := Remove(cs[i], p[1..])])
  }

  predicate DistinctNames(cs: seq<Node>)
  {
    forall i, j :: 0 <= i < j < |cs| ==> cs[i].name != cs[j].name
  }

  /** Sibling names are distinct at every level. */
  predicate WellFormed(n: Node)
  {
    match n
    case File(_, _) => true
    case Dir(_, cs) => DistinctNames(cs) && forall i :: 0 <= i < |cs| ==> WellFormed(cs[i])
  }

  // ---------------------------------------------------------------------------
  // Name bookkeeping

  /** Find only looks at names. */
  lemma FindByNames(cs: seq<Node>, ds: seq<Node>, name: string)
    requires |cs| == |ds|
    requires forall j :: 0 <= j < |cs| ==> cs[j].name == ds[j].name
    ensures Find(cs, name) == Find(ds, name)
  {
  }

  /** Appending a differently named entry does not disturb a search. */
  lemma FindAppend(cs: seq<Node>, x: Node, name: string)
    requires x.name != name
    ensures Find(cs + [x], name) == Find(cs, name)
  {
    assert forall k :: 0 <= k < |cs| ==> (cs + [x])[k] == cs[k];
  }

  /** The first entry with a name is the one Find reports. */
  lemma {:induction false} FindFirst(cs: seq<Node>, name: string, j: nat)
    requires j < |cs| && cs[j].name == name
    requires forall k :: 0 <= k < j ==> cs[k].name != name
    ensures Find(cs, name) == Some(j)
    decreases j
  {
    if j > 0 {
      FindFirst(cs[1..], name, j - 1);
    }
  }

  /** Unlinking entry `i` keeps every differently named entry findable, as the same node. */
  lemma FindAfterUnlink(cs: seq<Node>, i: nat, name: string)
    requires i < |cs| && cs[i].name != name
    ensures var ds := cs[..i] + cs[i + 1..];
            match Find(cs, name)
            case None => Find(ds, name).None?
            case Some(j) => Find(ds, name).Some? && ds[Find(ds, name).value] == cs[j]
  {
    var ds := cs[..i] + cs[i + 1..];
    forall k | 0 <= k < |ds|
      ensures ds[k] == cs[if k < i then k else k + 1]
    {
    }
    match Find(cs, name)
    case None =>
    case Some(j) =>
      var j' := if j < i then j else j - 1;
      FindFirst(ds, name, j');
  }

  /** Put and Remove below the root keep the root's name and kind. */
  lemma PutKeepsRoot(n: Node, p: Path, x: Node)
    requires |p| > 0
    ensures Put(n, p, x).name == n.name
    ensures n.Dir? <==> Put(n, p, x).Dir?
  {
  }

  lemma RemoveKeepsRoot(n: Node, p: Path)
    ensures Remove(n, p).name == n.name
    ensures n.Dir? <==> Remove(n, p).Dir?
  {
  }

  /** A node found at a non-empty path carries that path's last segment as its name. */
  lemma {:induction false} LookupName(n: Node, p: Path)
    requires |p| > 0 && Exists(n, p)
    ensures Lookup(n, p).value.name == Name(p)
    decreases |p|
  {
    var i := Find(n.children, p[0]).value;
    if |p| > 1 {
      LookupName(n.children[i], p[1..]);
      assert Name(p[1..]) == Name(p);
    }
  }

  // ---------------------------------------------------------------------------
  // Lookup along a concatenated path

  /** Resolving `p + q` is resolving `p`, then `q` from there. */
  lemma {:induction false} LookupAppend(n: Node, p: Path, q: Path)
    ensures Lookup(n, p + q) == match Lookup(n, p)
                                case None => None
                                case Some(m) => Lookup(m, q)
    decreases |p|
  {
    if |p| == 0 {
      assert p + q == q;
    } else {
      assert (p + q)[0] == p[0];
      assert (p + q)[1..] == p[1..] + q;
      match n
      case File(_, _) =>
      case Dir(_, cs) =>
        match Find(cs, p[0])
        case None =>
        case Some(i) => LookupAppend(cs[i], p[1..], q);
    }
  }

  /** Nothing lies below a regular file. */
  lemma NothingBelowFile(n: Node, p: Path, q: Path)
    requires IsFile(n, p) && |q| > 0
    ensures !Exists(n, p + q)
  {
    LookupAppend(n, p, q);
  }

  /** A regular file lies on the way to no other entry. */
  lemma FileIsNoAncestor(n: Node, p: Path, q: Path)
    requires IsFile(n, p) && Exists(n, q) && p != q
    ensures !(p <= q)
  {
    if p <= q {
      var rest := q[|p|..];
      assert p + rest == q;
      NothingBelowFile(n, p, rest);
    }
  }

  /** Two entries on one path: the upper one is a non-empty directory. */
  lemma AncestorIsNonEmptyDir(n: Node, p: Path, q: Path)
    requires p < q && Exists(n, q)
    ensures IsNonEmptyDir(n, p)
  {
    var rest := q[|p|..];
    assert q == p + rest;
    LookupAppend(n, p, rest);
  }

  /** Two distinct paths that both hold a regular file lie on different branches. */
  lemma DistinctFilesIncomparable(n: Node, p: Path, q: Path)
    requires IsFile(n, p) && IsFile(n, q) && p != q
    ensures Incomparable(p, q)
  {
    if p < q { AncestorIsNonEmptyDir(n, p, q); }
    if q < p { AncestorIsNonEmptyDir(n, q, p); }
  }

  // ---------------------------------------------------------------------------
  // Put

  /** After a Put under an existing directory, `x` is found at `p`. */
  lemma {:induction false} LookupPut(n: Node, p: Path, x: Node)
    requires |p| > 0 && IsDir(n, Parent(p)) && x.name == Name(p)
    ensures Lookup(Put(n, p, x), p) == Some(x)
    decreases |p|
  {
    var cs := n.children;
    if |p| == 1 {
      match Find(cs, p[0])
      case None =>
        assert (cs + [x])[|cs|] == x;
        assert Find(cs + [x], p[0]) == Some(|cs|);
      case Some(i) =>
        FindByNames(cs, cs[i := x], p[0]);
    } else {
      var i := Find(cs, p[0]).value;
      assert Parent(p[1..]) == Parent(p)[1..];
      assert Name(p[1..]) == Name(p);
      LookupPut(cs[i], p[1..], x);
      PutKeepsRoot(cs[i], p[1..], x);
      FindByNames(cs, cs[i := Put(cs[i], p[1..], x)], p[0]);
    }
  }

  /** Put is a no-op when the parent of `p` is not a directory. */
  lemma {:induction false} PutWithoutParent(n: Node, p: Path, x: Node)
    requires |p| > 0 && !IsDir(n, Parent(p))
    ensures Put(n, p, x) == n
    decreases |p|
  {
    if |p| > 1 && n.Dir? {
      match Find(n.children, p[0])
      case None =>
      case Some(i) =>
        assert Parent(p[1..]) == Parent(p)[1..];
        PutWithoutParent(n.children[i], p[1..], x);
        assert n.children[i := n.children[i]] == n.children;
    }
  }

  /** Put leaves every path that leaves the root by another entry alone. */
  lemma PutOffBranch(n: Node, p: Path, x: Node, q: Path)
    requires |p| > 0 && |q| > 0 && x.name == Name(p) && q[0] != p[0]
    ensures Lookup(Put(n, p, x), q) == Lookup(n, q)
  {
    match n
    case File(_, _) =>
    case Dir(nm, cs) =>
      match Find(cs, p[0])
      case None =>
        if |p| == 1 {
          FindAppend(cs, x, q[0]);
        }
      case Some(i) =>
        var ds := cs[i := Put(cs[i], p[1..], x)];
        if |p| > 1 {
          PutKeepsRoot(cs[i], p[1..], x);
        }
        FindByNames(cs, ds, q[0]);
        match Find(cs, q[0])
        case None =>
        case Some(m) =>
          assert m != i && ds[m] == cs[m];
  }

  /** Put leaves every path off its own branch alone. */
  lemma {:induction false} PutFrame(n: Node, p: Path, x: Node, q: Path)
    requires |p| > 0 && x.name == Name(p) && Incomparable(p, q)
    ensures Lookup(Put(n, p, x), q) == Lookup(n, q)
    decreases |p|
  {
    if q[0] != p[0] {
      PutOffBranch(n, p, x, q);
    } else {
      match n
      case File(_, _) =>
      case Dir(nm, cs) =>
        match Find(cs, p[0])
        case None =>
        case Some(i) =>
          var c' := Put(cs[i], p[1..], x);
          var ds := cs[i := c'];
          PutKeepsRoot(cs[i], p[1..], x);
          FindByNames(cs, ds, q[0]);
          assert Name(p[1..]) == Name(p);
          assert Incomparable(p[1..], q[1..]);
          PutFrame(cs[i], p[1..], x, q[1..]);
    }
  }

  /** A Put off the branch of a directory, or below it, keeps it a directory. */
  lemma {:induction false} PutKeepsDir(n: Node, p: Path, x: Node, q: Path)
    requires |p| > 0 && x.name == Name(p) && !(p <= q) && IsDir(n, q)
    ensures IsDir(Put(n, p, x), q)
    decreases |p|
  {
    if q <= p {
      if |q| == 0 {
        PutKeepsRoot(n, p, x);
      } else {
        var cs := n.children;
        var i := Find(cs, p[0]).value;
        PutKeepsRoot(cs[i], p[1..], x);
        FindByNames(cs, cs[i := Put(cs[i], p[1..], x)], q[0]);
        assert Name(p[1..]) == Name(p);
        PutKeepsDir(cs[i], p[1..], x, q[1..]);
      }
    } else {
      PutFrame(n, p, x, q);
    }
  }

  /** A regular file at another path survives a Put that does not overwrite a non-empty directory. */
  lemma PutKeepsFile(n: Node, p: Path, x: Node, d: Path)
    requires |p| > 0 && x.name == Name(p)
    requires IsFile(n, d) && d != p && !IsNonEmptyDir(n, p)
    ensures Lookup(Put(n, p, x), d) == Lookup(n, d)
  {
    if p < d {
      AncestorIsNonEmptyDir(n, p, d);
    } else if d < p {
      assert !IsDir(n, Parent(p)) by {
        if Parent(p) == d {
        } else {
          assert d < Parent(p);
          NothingBelowFile(n, d, Parent(p)[|d|..]);
          assert d + Parent(p)[|d|..] == Parent(p);
        }
      }
      PutWithoutParent(n, p, x);
    } else {
      PutFrame(n, p, x, d);
    }
  }

  // ---------------------------------------------------------------------------
  // Remove

  /** Remove leaves every path off its own branch alone. */
  lemma {:induction false} RemoveFrame(n: Node, p: Path, q: Path)
    requires |p| > 0 && Incomparable(p, q)
    ensures Lookup(Remove(n, p), q) == Lookup(n, q)
    decreases |p|
  {
    match n
    case File(_, _) =>
    case Dir(nm, cs) =>
      match Find(cs, p[0])
      case None =>
      case Some(i) =>
        if |p| == 1 {
          FindAfterUnlink(cs, i, q[0]);
        } else {
          var c' := Remove(cs[i], p[1..]);
          RemoveKeepsRoot(cs[i], p[1..]);
          FindByNames(cs, cs[i := c'], q[0]);
          if q[0] == p[0] {
            assert Incomparable(p[1..], q[1..]);
            RemoveFrame(cs[i], p[1..], q[1..]);
          }
        }
  }

  /** A Remove off the branch of a directory, or below it, keeps it a directory. */
  lemma {:induction false} RemoveKeepsDir(n: Node, p: Path, q: Path)
    requires |p| > 0 && !(p <= q) && IsDir(n, q)
    ensures IsDir(Remove(n, p), q)
    decreases |p|
  {
    if q <= p {
      if |q| > 0 {
        var cs := n.children;
        var i := Find(cs, p[0]).value;
        assert |p| > 1;
        RemoveKeepsRoot(cs[i], p[1..]);
        FindByNames(cs, cs[i := Remove(cs[i], p[1..])], q[0]);
        RemoveKeepsDir(cs[i], p[1..], q[1..]);
      }
    } else {
      RemoveFrame(n, p, q);
    }
  }

  /** Unlinking a regular file leaves every other regular file where it was. */
  lemma RemoveKeepsFile(n: Node, p: Path, d: Path)
    requires |p| > 0 && IsFile(n, p) && IsFile(n, d) && d != p
    ensures Lookup(Remove(n, p), d) == Lookup(n, d)
  {
    DistinctFilesIncomparable(n, p, d);
    RemoveFrame(n, p, d);
  }

  /** In a well-formed tree the removed entry is gone. */
  lemma {:induction false} LookupRemove(n: Node, p: Path)
    requires |p| > 0 && WellFormed(n)
    ensures Lookup(Remove(n, p), p).None?
    decreases |p|
  {
    match n
    case File(_, _) =>
    case Dir(nm, cs) =>
      match Find(cs, p[0])
      case None =>
      case Some(i) =>
        if |p| == 1 {
          var ds := cs[..i] + cs[i + 1..];
          assert forall k :: 0 <= k < |ds| ==> ds[k].name != p[0] by {
            forall k | 0 <= k < |ds|
              ensures ds[k].name != p[0]
            {
              if k < i { assert ds[k] == cs[k]; } else { assert ds[k] == cs[k + 1]; }
            }
          }
        } else {
          RemoveKeepsRoot(cs[i], p[1..]);
          FindByNames(cs, cs[i := Remove(cs[i], p[1..])], p[0]);
          LookupRemove(cs[i], p[1..]);
        }
  }

  // ---------------------------------------------------------------------------
  // What Put and Remove can create

  /**
    Putting a leaf (a file or an empty directory) creates no regular file
    other than the leaf itself, and fills no directory other than the
    ancestors of `p`.
   */
  lemma PutLeafOnly(n: Node, p: Path, x: Node, q: Path)
    requires |p| > 0 && x.name == Name(p) && (x.File? || |x.children| == 0)
    ensures IsFile(Put(n, p, x), q) ==> IsFile(n, q) || (q == p && x.File?)
    ensures IsNonEmptyDir(Put(n, p, x), q) ==> IsNonEmptyDir(n, q) || q < p
  {
    if !IsDir(n, Parent(p)) {
      PutWithoutParent(n, p, x);
    } else if q == p {
      LookupPut(n, p, x);
    } else if Incomparable(p, q) {
      PutFrame(n, p, x, q);
    } else if q < p {
      if |q| < |p| - 1 {
        assert q < Parent(p);
        AncestorIsNonEmptyDir(n, q, Parent(p));
      } else {
        assert q == Parent(p);
      }
      PutKeepsDir(n, p, x, q);
    } else {
      var rest := q[|p|..];
      assert q == p + rest;
      LookupPut(n, p, x);
      LookupAppend(Put(n, p, x), p, rest);
    }
  }

  /** Unlinking a regular file creates no regular file and fills no directory. */
  lemma RemoveFileOnly(n: Node, p: Path, q: Path)
    requires |p| > 0 && WellFormed(n) && IsFile(n, p)
    ensures IsFile(Remove(n, p), q) ==> IsFile(n, q)
    ensures IsNonEmptyDir(Remove(n, p), q) ==> IsNonEmptyDir(n, q)
  {
    if Incomparable(p, q) {
      RemoveFrame(n, p, q);
    } else if q < p {
      AncestorIsNonEmptyDir(n, q, p);
      RemoveKeepsDir(n, p, q);
    } else {
      var rest := q[|p|..];
      assert q == p + rest;
      LookupRemove(n, p);
      LookupAppend(Remove(n, p), p, rest);
    }
  }

  // ---------------------------------------------------------------------------
  // Well-formedness is preserved

  /** Every entry of a well-formed tree is well-formed. */
  lemma {:induction false} WellFormedBelow(n: Node, p: Path)
    requires WellFormed(n) && Exists(n, p)
    ensures WellFormed(Lookup(n, p).value)
    decreases |p|
  {
    if |p| > 0 {
      var i := Find(n.children, p[0]).value;
      WellFormedBelow(n.children[i], p[1..]);
    }
  }

  /** Replacing a child by a well-formed node of the same name keeps the listing well-formed. */
  lemma ReplaceWellFormed(nm: string, cs: seq<Node>, i: nat, c: Node)
    requires i < |cs| && WellFormed(Dir(nm, cs)) && WellFormed(c) && c.name == cs[i].name
    ensures WellFormed(Dir(nm, cs[i := c]))
  {
    var ds := cs[i := c];
    assert forall k :: 0 <= k < |ds| ==> ds[k].name == cs[k].name;
  }

  /** Appending a well-formed node under a fresh name keeps the listing well-formed. */
  lemma AppendWellFormed(nm: string, cs: seq<Node>, x: Node)
    requires WellFormed(Dir(nm, cs)) && WellFormed(x) && Find(cs, x.name).None?
    ensures WellFormed(Dir(nm, cs + [x]))
  {
    var ds := cs + [x];
    assert forall k :: 0 <= k < |cs| ==> ds[k] == cs[k];
  }

  /** Unlinking child `i` keeps the listing well-formed. */
  lemma UnlinkWellFormed(nm: string, cs: seq<Node>, i: nat)
    requires i < |cs| && WellFormed(Dir(nm, cs))
    ensures WellFormed(Dir(nm, cs[..i] + cs[i + 1..]))
  {
    var ds := cs[..i] + cs[i + 1..];
    assert forall k :: 0 <= k < |ds| ==> ds[k] == cs[if k < i then k else k + 1];
  }

  lemma {:induction false} PutWellFormed(n: Node, p: Path, x: Node)
    requires |p| > 0 && WellFormed(n) && WellFormed(x) && x.name == Name(p)
    ensures WellFormed(Put(n, p, x))
    decreases |p|
  {
    match n
    case File(_, _) =>
    case Dir(nm, cs) =>
      match Find(cs, p[0])
      case None =>
        if |p| == 1 {
          AppendWellFormed(nm, cs, x);
        }
      case Some(i) =>
        var c' := Put(cs[i], p[1..], x);
        if |p| > 1 {
          PutKeepsRoot(cs[i], p[1..], x);
          assert Name(p[1..]) == Name(p);
          PutWellFormed(cs[i], p[1..], x);
        }
        ReplaceWellFormed(nm, cs, i, c');
  }

  lemma {:induction false} RemoveWellFormed(n: Node, p: Path)
    requires WellFormed(n)
    ensures WellFormed(Remove(n, p))
    decreases |p|
  {
    if |p| > 0 {
      match n
      case File(_, _) =>
      case Dir(nm, cs) =>
        match Find(cs, p[0])
        case None =>
        case Some(i) =>
          if |p| == 1 {
            UnlinkWellFormed(nm, cs, i);
          } else {
            RemoveKeepsRoot(cs[i], p[1..]);
            RemoveWellFormed(cs[i], p[1..]);
            ReplaceWellFormed(nm, cs, i, Remove(cs[i], p[1..]));
          }
    }
  }
}

=== FILE: wrappers.dfy ===
/** Option and Result values used for lookups and for the run's error path. */
module Wrappers {

  datatype Option<+T> = None | Some(value: T)

  datatype Result<+T, +E> = Ok(value: T) | Err(error: E)
}
